=== FILE: README.md ===
# Jira interaction dashboard: the record-reconciliation core

`mcp_jira_dashboard_app.py` is a Streamlit dashboard over a log of Jira tool
calls. Two copies of the automated log are read from a sheet, and a manual log
can be uploaded as CSV. The dashboard then:

- decodes each automated row's JSON `response`;
- extracts issue fields from it with `safe_get`;
- coerces timestamps and durations, and derives the issue's `project`;
- adapts the manual table to the automated one's vocabulary;
- stacks the two tables on the columns they share;
- draws charts from group-by counts and means.

This project models that core in Dafny and proves properties of it.

- Tables are the class `Frames.DataFrame`: a header (a sequence of names, which may repeat) and rows (maps from name to cell).
- Its methods change a table in place, as the script does: `Assign` is `df[name] = values`, `Relabel` relabels the header, `Select` is `df[cols]`, and `DropDuplicateColumns` is `df.loc[:, ~df.columns.duplicated()]`.
- The steps that change tables are methods: the normalisation loop, the manual adapter and the reconciliation.
- Each method is proved against a specification function that gives the table it leaves. Examples are `NormalizeRow`, `ManualRow`, `CombinedRows` and `ColsToUse`.
- Lemmas about those functions state what the script promises.
- Decoding and field access are pure functions.
- The aggregations are pure functions with lemmas about group keys, orders and totals.

The library calls `json.loads`, `pd.to_datetime(errors='coerce')` and `pd.to_numeric(errors='coerce')` are parameters. They are the fields of `Values.Library`, each returning `Option` (`None` meaning NaN/NaT). Numbers are exact `real`s.

In these places the model follows the program's actual behaviour:

- `safe_get` with a subfield raises AttributeError when the field holds a non-mapping such as JSON `null`. It does not return null. The model returns `Err`, and the normalisation stops with that error.
- `df['issue_key'].str` raises AttributeError when some key is present and the non-null keys are all numbers or all booleans. The model reports `NotStrings("issue_key")` and the normalisation stops there.
- `idxmin()` raises ValueError on an empty tool summary, that is when no row names a tool. `NorthStar` returns `Err(EmptySummary)` then.
- An `issue_key` with no `-` gives the whole key as its `project`, not null.
- When the manual table is empty, the comparison tab shows nothing (`ReconcileFrames` returns `None`). It does not show the automated table.
- An automated `time_to_create` is only coerced to a number. It is not made non-negative, so only manual durations are proved non-negative.
- The script changes `df`, `auto_df` and `manual_df` in place rather than building new tables. The model's methods do the same.

## Model

| member | source | states |
|---|---|---|
| Payload.ParseResponse | mcp_jira_dashboard_app.py:54-58 | Total: a decoded string gives the decoder's value; a failed decode or a non-string cell gives the empty mapping `{}` |
| Payload.ParseKeepsNonMapping | mcp_jira_dashboard_app.py:54-58 | A text that decodes to a non-mapping (list, number) is passed on as that very value, not replaced by `{}` |
| Payload.SafeGet | mcp_jira_dashboard_app.py:60-65 | Non-mapping data gives None; without a truthy subfield gives `data.get(field)`; fails exactly when a truthy subfield meets a present non-mapping `data[field]`, and the failure names that field |
| Payload.SafeGetReadsPath | mcp_jira_dashboard_app.py:60-65 | Whenever `safe_get` returns, it returns the value at the path `[field]` or `[field, subfield]` of an independent total path reader; when it fails, the field is present, is not a mapping and a subfield was asked for |
| Payload.SafeGetTwoLevels | mcp_jira_dashboard_app.py:62-63 | With a non-empty subfield: an absent field gives None; a mapping under the field gives its `subfield` entry or None |
| Payload.NullIntermediateFails | mcp_jira_dashboard_app.py:63 | An unresolved issue (`"resolution": null`) makes `safe_get(x, 'resolution', 'name')` raise rather than give None |
| Values.FromJson | mcp_jira_dashboard_app.py:69-85 | A read cell is null exactly when the key was absent or JSON null; a JSON string, number, boolean, list or object is kept as that value |
| Values.ToDatetime | mcp_jira_dashboard_app.py:73-74 | `to_datetime(errors='coerce')` gives a time exactly when the parser accepts the cell, and then the parser's own time; null otherwise; it never fails |
| Values.ToNumeric | mcp_jira_dashboard_app.py:76 | `to_numeric(errors='coerce')` gives a number exactly when the parser accepts the cell, and then the parser's own number; null otherwise |
| Text.Strip | mcp_jira_dashboard_app.py:21 | `str.strip()`: the result is a slice of the input, with only whitespace removed on either side and no whitespace at either end |
| Text.StripTrimmed | mcp_jira_dashboard_app.py:21 | A label with no surrounding whitespace is unchanged by stripping |
| Text.Lower | mcp_jira_dashboard_app.py:31 | `str.lower()` keeps the length, maps each character, and leaves no upper-case letter |
| Text.BeforeDash | mcp_jira_dashboard_app.py:79 | `split('-')[0]`: a prefix of the key with no dash, that is the whole key or stops at the first dash |
| Text.BeforeDashUnique | mcp_jira_dashboard_app.py:79 | Those three facts determine the result: any prefix with them is `split('-')[0]` |
| Text.BeforeDashOfKey | mcp_jira_dashboard_app.py:79 | The project of `PROJ-123` style keys is the text before the dash |
| Text.BeforeDashNoDash | mcp_jira_dashboard_app.py:79 | A key without a dash is its own project |
| Normalize.ProjectOf | mcp_jira_dashboard_app.py:79 | `project` is null exactly when `issue_key` is not a string; otherwise a dash-free prefix of the key, ending at the key's end or its first dash |
| Normalize.ProjectOfDashFreeKey | mcp_jira_dashboard_app.py:79 | A string key without a dash has a non-null project: the whole key |
| Normalize.StrRefusesNoString | mcp_jira_dashboard_app.py:79 | When `.str` refuses the key column, no key is a string, so no row would have had a project; a column with a string key is accepted |
| Normalize.NumericKeysRefused | mcp_jira_dashboard_app.py:79 | A key column of numbers and nulls is refused by `.str`; an all-null column is not refused |
| Normalize.NormalizeRow | mcp_jira_dashboard_app.py:67-85 | A normalised row's `project` is derived from its own `issue_key`, its `parsed` is its decoded `response`, and `response` is kept |
| Normalize.FirstError | mcp_jira_dashboard_app.py:67-85 | A KeyError names a missing column; an AttributeError names a field that some row's payload holds as a non-mapping; a `.str` failure happens only when no row's key gives a project |
| Normalize.ReadIsAt | mcp_jira_dashboard_app.py:69-85 | Every payload field put in a column is the value at that field's path in the decoded payload |
| Normalize.NormalizedColumns | mcp_jira_dashboard_app.py:67-85 | The old header is kept as a prefix and exactly the fifteen derived names are added; `time_to_create` and `project` always exist afterwards |
| Normalize.AddNamesShape | mcp_jira_dashboard_app.py:67-85 | Assigning columns in turn keeps the old header as a prefix, adds exactly the assigned names and creates no repeated name |
| Normalize.NoErrorIffReadable | mcp_jira_dashboard_app.py:67-85 | The loop body finishes exactly when `response` and `timestamp` exist, every row survives the six two-level reads, and the `issue_key` column is one `.str` accepts |
| Normalize.AssignIdentity | mcp_jira_dashboard_app.py:68-70 | Adds `parsed`, `issue_key`, `summary` and gives each row its own payload's values |
| Normalize.AssignStatus | mcp_jira_dashboard_app.py:71-73 | Fails with the status, else the priority, AttributeError if any row raises; otherwise adds `status`, `priority`, `created` per row |
| Normalize.AssignProject | mcp_jira_dashboard_app.py:79 | Fails exactly when `.str` refuses the `issue_key` column; otherwise adds `project`, derived from each row's own key |
| Normalize.AssignCoercions | mcp_jira_dashboard_app.py:74-79 | KeyError when `timestamp` is missing; AttributeError from `.str` when no `issue_key` is a string; otherwise coerces `timestamp`, coerces `time_to_create` or fills it with null when the column was absent, and derives `project` |
| Normalize.AssignPeople | mcp_jira_dashboard_app.py:80-82 | Fails at the first of issue type, reporter, assignee that raises in some row; otherwise adds the three names per row |
| Normalize.AssignResolution | mcp_jira_dashboard_app.py:83-85 | Fails if some row's `resolution` is not a mapping; otherwise adds `labels`, `resolution`, `resolution_date` per row |
| Normalize.NormalizeFrame | mcp_jira_dashboard_app.py:67-85 | Returns the first error the body meets, in the body's order (`response` KeyError, status and priority reads, `timestamp` KeyError, `.str` on `issue_key`, then the people and resolution reads); keeps the row count; on success adds the derived columns and turns each row into `NormalizeRow` of itself |
| Pipeline.Setup | mcp_jira_dashboard_app.py:19-21 | Both copies get `source = 'automated'` in every row; the second copy's header labels are stripped |
| Pipeline.NormalizeBoth | mcp_jira_dashboard_app.py:67 | The loop over `[df, auto_df]` stops at the first table that fails; on success both tables are normalised from their own old state |
| Manual.Clean | mcp_jira_dashboard_app.py:31 | A cleaned label is no longer than the original and has no upper-case letter |
| Manual.CleanOfClean | mcp_jira_dashboard_app.py:31 | A label already stripped and lower-case is left as it is |
| Manual.CleanIdempotent | mcp_jira_dashboard_app.py:31 | Cleaning a label twice is cleaning it once |
| Manual.Rename | mcp_jira_dashboard_app.py:32-36 | No label is renamed to `user`, `tool_used` or `time_taken_sec`, and only those three are renamed |
| Manual.ManualHeader | mcp_jira_dashboard_app.py:29-36 | The adapted header has one label per uploaded column, plus `source` |
| Manual.AdapterError | mcp_jira_dashboard_app.py:29-41 | The adapter fails only with a KeyError on `timestamp` or `time_to_create`; on `timestamp` exactly when that literal column is missing; on success both columns exist |
| Manual.ManualRow | mcp_jira_dashboard_app.py:29-41 | Every adapted row has a null `response` |
| Manual.HeaderDropsOldNames | mcp_jira_dashboard_app.py:31-36 | `user`, `tool_used`, `time_taken_sec` never occur in the adapted header |
| Manual.HeaderRenames | mcp_jira_dashboard_app.py:31-36 | A header that strips and lower-cases to `user`/`tool_used`/`time_taken_sec` appears as `name`/`tool_name`/`time_to_create` |
| Manual.Round2 | mcp_jira_dashboard_app.py:37 | `round(2)` lies within 0.005 of its input and keeps non-negatives non-negative |
| Manual.Round2Idempotent | mcp_jira_dashboard_app.py:37 | Rounding a rounded value changes nothing |
| Manual.Round2Ties | mcp_jira_dashboard_app.py:37 | Ties go to the even hundredth: 0.125 to 0.12, 0.135 to 0.14, -0.125 to -0.12 |
| Manual.Abs | mcp_jira_dashboard_app.py:37 | `abs()` is non-negative and equals the value or its negation |
| Manual.Duration | mcp_jira_dashboard_app.py:37 | A manual duration is null exactly when it is not numeric; otherwise it is non-negative and within 0.005 of the absolute value |
| Manual.DurationScenario | mcp_jira_dashboard_app.py:37 | The text `-4.567` becomes the duration 4.57 |
| Manual.TaggedRow | mcp_jira_dashboard_app.py:29-36 | A row after coercion, tagging and relabelling has a value for exactly the adapted header's names |
| Manual.TagRows | mcp_jira_dashboard_app.py:29-30 | Coerces each row's `timestamp` and sets its `source` to `manual` |
| Manual.CleanHeader | mcp_jira_dashboard_app.py:31-36 | Relabels the header by strip+lower, then by the renaming, carrying each row's values along |
| Manual.Project | mcp_jira_dashboard_app.py:37-41 | Replaces `time_to_create` by its duration, keeps only the `keep_cols` present, and adds a null `response` column |
| Manual.AdaptManual | mcp_jira_dashboard_app.py:29-41 | KeyError for a missing literal `timestamp` (read before cleaning), else for a missing `time_to_create` after renaming; otherwise each row becomes `ManualRow` of itself under `ManualColumns`, row count unchanged |
| Manual.KeepColsDistinct | mcp_jira_dashboard_app.py:38 | `keep_cols` has no repeats and does not contain `response` |
| Manual.ManualColumnsShape | mcp_jira_dashboard_app.py:38-41 | The adapted header is the `keep_cols` entries present, in `keep_cols` order, followed by `response` |
| Manual.KeptFacts | mcp_jira_dashboard_app.py:38-39 | Once the adapter succeeds, `time_to_create` is kept, `response` is not among the kept columns, and every kept column exists |
| Manual.ManualRowKeys | mcp_jira_dashboard_app.py:38-41 | Every adapted row has a value for exactly the adapted header |
| Manual.ManualDurationNonNegative | mcp_jira_dashboard_app.py:37 | Every adapted row's `time_to_create` is null or a non-negative number |
| Frames.AddName | mcp_jira_dashboard_app.py:19 | `df[name] = ...` keeps the header as a prefix and adds exactly `name` |
| Frames.RelabelledAvoids | mcp_jira_dashboard_app.py:32-36 | A label the relabelling never produces is absent afterwards |
| Frames.RelabelRow | mcp_jira_dashboard_app.py:31-36 | A relabelled row has exactly the new labels; each takes the value of the first column that maps to it |
| Frames.Restrict | mcp_jira_dashboard_app.py:179-180 | Selecting columns keeps exactly the selected names a row has, with their values |
| Frames.DataFrame.Assign | mcp_jira_dashboard_app.py:19-20 | Adds or overwrites one column in place |
| Frames.DataFrame.Relabel | mcp_jira_dashboard_app.py:21 | Relabels the header in place, carrying each row's values to the new labels |
| Frames.DataFrame.Select | mcp_jira_dashboard_app.py:179-180 | `df[cols]`: the header becomes `cols`, and each row keeps only those columns |
| Frames.DataFrame.DropDuplicateColumns | mcp_jira_dashboard_app.py:170-171 | Keeps the first occurrence of each header name, and the rows unchanged |
| Seqs.Dedup | mcp_jira_dashboard_app.py:170-171 | First-occurrence de-duplication: no repeats, the same elements, in order of first occurrence |
| Seqs.Filter | mcp_jira_dashboard_app.py:175-176 | `[c for c in xs if c in keep]`: exactly the elements of `xs` that are in `keep` |
| Seqs.FilterOrder | mcp_jira_dashboard_app.py:39 | The filtered list keeps the order of the list it filters |
| Reconcile.ColsToUse | mcp_jira_dashboard_app.py:170-177 | `cols_to_use` is `common_cols` ∩ manual columns ∩ automated columns; de-duplication does not change it |
| Reconcile.ChosenColumns | mcp_jira_dashboard_app.py:175-177 | One listing of `cols_to_use`: no repeats, the same set |
| Reconcile.Project | mcp_jira_dashboard_app.py:179-180 | Projection keeps the row count and restricts each row |
| Reconcile.CombinedRows | mcp_jira_dashboard_app.py:182 | The stacked table has `|manual| + |auto|` rows: manual rows first, automated rows after, each side in its order |
| Reconcile.CombinedWellFormed | mcp_jira_dashboard_app.py:179-182 | Every stacked row has a value for exactly the chosen columns |
| Reconcile.ReconcileFrames | mcp_jira_dashboard_app.py:167-182 | An empty manual table gives nothing and changes nothing; otherwise both tables are projected in place onto a repeat-free listing of `cols_to_use`, and the result is their stacking |
| Counts.TotalOfTally | mcp_jira_dashboard_app.py:99 | The counts of a series add up to the summed counts of its keys |
| Counts.CreatedDates | mcp_jira_dashboard_app.py:99 | The grouped dates are exactly the dates of the rows with a non-null `created` |
| Counts.CreatedDatesCount | mcp_jira_dashboard_app.py:99 | A date is listed once for each row created on it |
| Counts.CreatedDatesSize | mcp_jira_dashboard_app.py:99 | One date is listed per row with a non-null `created` |
| Counts.IssuesByDate | mcp_jira_dashboard_app.py:99 | Each date's count is the number of rows created on that date |
| Counts.SortedKeysFacts | mcp_jira_dashboard_app.py:99 | Group keys of a date or hour group-by are listed once each, ascending |
| Counts.IssuesByDateKeys | mcp_jira_dashboard_app.py:99 | Issues per date lists each creation date once, ascending, each with a positive count |
| Counts.IssuesByDateTotal | mcp_jira_dashboard_app.py:99 | The per-date counts add up to the number of rows with a non-null `created` |
| Counts.Grid | mcp_jira_dashboard_app.py:104 | `unstack(fill_value=0)`: one cell per key pair, holding its count; a pair that never occurs counts 0 |
| Counts.CountPair | mcp_jira_dashboard_app.py:104 | The count of a pair is the count of its second key among the pairs with its first key |
| Counts.RowTotal | mcp_jira_dashboard_app.py:104 | A line of the table adds up to the number of pairs with its key |
| Counts.GridTotalIsSize | mcp_jira_dashboard_app.py:104 | The table's cells add up to the number of pairs |
| Counts.PriorityPairs | mcp_jira_dashboard_app.py:103-104 | Exactly the SCRUM and CLD rows with a non-null priority are grouped: each such row's pair is present, and every pair is some row's |
| Counts.PriorityPairsCount | mcp_jira_dashboard_app.py:103-104 | A (project, priority) pair is listed once for each SCRUM or CLD row with that project and priority |
| Counts.PriorityPairsSize | mcp_jira_dashboard_app.py:103-104 | One pair is listed per SCRUM or CLD row with a non-null priority |
| Counts.PriorityGrid | mcp_jira_dashboard_app.py:103-104 | One line per project and one cell per priority; each cell holds the number of rows with that project and priority |
| Counts.HourPairs | mcp_jira_dashboard_app.py:151-153 | The (day, hour) pairs are exactly those of the rows with a non-null timestamp |
| Counts.HourPairsCount | mcp_jira_dashboard_app.py:151-153 | A (day, hour) pair is listed once for each row with a timestamp at that day and hour |
| Counts.HourPairsSize | mcp_jira_dashboard_app.py:151-153 | One pair is listed per row with a non-null timestamp |
| Counts.HourGrid | mcp_jira_dashboard_app.py:151-153 | One line per day and one cell per hour, ascending; each cell holds the number of rows at that day and hour |
| Counts.PriorityGridTotal | mcp_jira_dashboard_app.py:103-104 | The project-by-priority cells add up to the number of SCRUM and CLD rows that have a priority |
| Counts.HourGridTotal | mcp_jira_dashboard_app.py:151-153 | The day-by-hour cells add up to the number of rows with a non-null timestamp |
| Tools.ToolCells | mcp_jira_dashboard_app.py:113 | Rows with a null `tool_name` form no group; every non-null tool of a row is a group, and every group is some row's tool |
| Tools.ToolCellsCount | mcp_jira_dashboard_app.py:113 | A tool is listed once for each of its rows |
| Tools.ToolCellsSize | mcp_jira_dashboard_app.py:113 | One tool is listed per row with a non-null tool |
| Tools.Mean | mcp_jira_dashboard_app.py:113 | A tool's mean is NaN exactly when it has no numeric duration; otherwise it times their number is their sum |
| Tools.MeanBetween | mcp_jira_dashboard_app.py:113 | A tool's mean lies between any lower and any upper bound of its numeric durations |
| Tools.MeanIgnoresNull | mcp_jira_dashboard_app.py:113 | A row without a numeric duration changes no mean |
| Tools.MeanDefined | mcp_jira_dashboard_app.py:113 | A tool's mean is not NaN exactly when one of its rows has a numeric duration |
| Tools.SortByMeanFacts | mcp_jira_dashboard_app.py:113 | `sort_values()` gives an ascending order with NaN last, and a permutation of its input |
| Tools.ToolSummaryOrdered | mcp_jira_dashboard_app.py:113 | The per-tool summary is ascending by mean, NaN last, and lists no tool twice |
| Tools.ToolSummaryEntries | mcp_jira_dashboard_app.py:113 | The summary's entries are exactly the non-null tools, each with its own mean |
| Tools.ToolSummary | mcp_jira_dashboard_app.py:113-114 | The summary is sorted by mean, NaN last, with one entry per tool |
| Tools.NorthStar | mcp_jira_dashboard_app.py:116-117 | `idxmin` fails exactly on an empty summary; a north star it returns is an entry of the summary |
| Tools.NorthStarIsMinimum | mcp_jira_dashboard_app.py:116-117 | On a summary sorted by mean: `idxmin` fails exactly on an empty summary; a north star has the least mean; there is none exactly when the summary is non-empty and every mean is NaN |
| Tools.NorthStarFailsIffNoTool | mcp_jira_dashboard_app.py:113-116 | `idxmin` fails exactly when no row names a tool |
| Tools.NorthStarOfRows | mcp_jira_dashboard_app.py:113-117 | A north star is a tool of some row, its mean is that tool's own mean, and no tool has a smaller mean |
| Tools.ToolUsage | mcp_jira_dashboard_app.py:199 | One line per tool; a tool's count is the number of its rows with a numeric duration, and is zero exactly when its mean is NaN |
| Tools.ToolUsageEntries | mcp_jira_dashboard_app.py:199 | The usage table lists each non-null tool exactly once, each with the number of its rows that have a numeric duration and with its own mean, and nothing else |
| Tools.TimedToolsCount | mcp_jira_dashboard_app.py:199 | A tool is listed among the timed tools once for each of its rows with a numeric duration |
| Tools.TimedToolsSize | mcp_jira_dashboard_app.py:199 | One timed tool is listed per row with both a tool and a numeric duration |
| Tools.DurationsRows | mcp_jira_dashboard_app.py:113 | The durations averaged for a tool are one per row of that tool with a numeric duration |
| Tools.ToolUsageFacts | mcp_jira_dashboard_app.py:199 | A usage count is at most the number of the tool's rows, and the counts add up to the number of rows with both a tool and a numeric duration |

## Left out

- Streamlit UI, metrics, tabs, file upload and every chart (matplotlib, seaborn) are presentation only. So are the KPIs over `email`, the per-user efficiency chart, the `confluence` filter, the `nl_triggered` chart and the per-source means of the charts.
- The Google Sheets connection and CSV reading are I/O. The tables they produce are the inputs of the methods.
- The internals of `json.loads`, `pd.to_datetime` and `pd.to_numeric` are library code. They are the `Library` parameter.
- Manual.Duration: floats are exact reals. The model does not capture binary rounding of `round(2)` or of means.
- Text.Lower: only ASCII letters are lower-cased; Unicode case mapping is not modelled.
- Counts.PriorityGrid: pandas sorts the project and priority keys; the model lists them in order of first appearance. The cells and totals are the same.
- Tools.ToolCells: the tool groups are listed in order of first appearance rather than pandas' sorted order. The summary is sorted by mean afterwards, so only the order of equal means can differ.
- Tools.ToolUsage: the usage table is never re-sorted. pandas lists its lines by tool name; the model lists them in order of first appearance.
- Tools.SortByMeanFacts: the model's sort is stable. pandas' default quicksort and `idxmin` promise no order among equal means, and no lemma relies on one.
- Reconcile.ChosenColumns: Python's set order for `cols_to_use` is not specified. The model lists `common_cols` order, and every contract speaks of the set only.
- Frames.RelabelRow: a table holds one value per column name, so the model cannot hold two columns with the same label; it keeps the first one's values. Some collisions make the script fail before the de-duplication at line 170, and the model does not fail there: a manual upload with both `time_taken_sec` and `time_to_create` makes `pd.to_numeric` at line 37 raise TypeError, and automated labels `timestamp` and `timestamp ` collide after the strip at line 21 so that `pd.to_datetime` at line 74 raises ValueError. Other collisions, such as a manual upload with both `User` and `user` (both become `name`), reach line 170, whose first-wins rule agrees with the model's.
- Normalize.NormalizeFrame: the state of a table after a failed step is not specified. The model only says which error stops the script.
- Counts.HourPairs: the `day` and `hour` helper columns that lines 151-152 add to `df` are not added as columns. The heatmap reads them from each row's timestamp.
- Values.ToDatetime: the parser works cell by cell. pandas 2 infers one date format per column from its first value, and that cannot be expressed per cell.
- Tools.NorthStar: on a non-empty summary whose every mean is NaN, pandas' `idxmin` warns and returns NaN or raises, depending on the version. The model returns `Ok(None)`.
- Normalize.StrRefuses: pandas decides whether `.str` applies from the inferred type of the column. The model states that rule for JSON values: a column with no string and only numbers, or only booleans, besides nulls is refused. A column mixing numbers and booleans is accepted.
- Manual.ManualHeader: its own contract gives the header's length only. Which labels it holds is stated by `Manual.HeaderDropsOldNames` and `Manual.HeaderRenames`.
- A worked example on literal header strings is not proved. The rename lemmas are stated for all headers instead.

=== FILE: counts.dfy ===
/** Group-by counts of the overview tab: issues per creation date, and the
    zero-filled two-key tables `groupby([a, b]).size().unstack(fill_value=0)`. */
module Counts {
  import opened Values
  import opened Seqs

  /** Strictly ascending, hence free of repeats. */
  predicate Increasing(s: seq<int>)
  {
    forall i, j :: 0 <= i < j < |s| ==> s[i] < s[j]
  }

  lemma IncreasingDistinct(s: seq<int>)
    requires Increasing(s)
    ensures NoDuplicates(s)
  {
  }

  /** `x` added to an ascending list of distinct keys. */
  function InsertKey(x: int, s: seq<int>): seq<int>
  {
    if s == [] || x < s[0] then [x] + s
    else if x == s[0] then s
    else [s[0]] + InsertKey(x, s[1..])
  }

  lemma {:induction false} InsertKeyElems(x: int, s: seq<int>)
    ensures Elems(InsertKey(x, s)) == Elems(s) + {x}
  {
    if s == [] || x < s[0] {
      ElemsConcat([x], s);
    } else if x != s[0] {
      InsertKeyElems(x, s[1..]);
      assert s == [s[0]] + s[1..];
      ElemsConcat([s[0]], s[1..]);
      ElemsConcat([s[0]], InsertKey(x, s[1..]));
    }
  }

  lemma {:induction false} InsertKeyIncreasing(x: int, s: seq<int>)
    requires Increasing(s)
    ensures InsertKey(x, s) != [] && InsertKey(x, s)[0] == if s == [] || x < s[0] then x else s[0]
    ensures Increasing(InsertKey(x, s))
  {
    if s != [] && x > s[0] {
      var rest := InsertKey(x, s[1..]);
      InsertKeyIncreasing(x, s[1..]);
      assert forall j :: 0 <= j < |rest| ==> s[0] < rest[j] by {
        forall j | 0 <= j < |rest| ensures s[0] < rest[j] {
          assert rest[0] <= rest[j];
        }
      }
    }
  }

  /** The sorted group keys of a group-by on integer keys. */
  function SortedKeys(xs: seq<int>): seq<int>
  {
    if xs == [] then [] else InsertKey(xs[|xs| - 1], SortedKeys(xs[..|xs| - 1]))
  }

  /** `SortedKeys` lists every key once, ascending. */
  lemma {:induction false} SortedKeysFacts(xs: seq<int>)
    ensures Increasing(SortedKeys(xs))
    ensures Elems(SortedKeys(xs)) == Elems(xs)
  {
    if xs != [] {
      var init := xs[..|xs| - 1];
      SortedKeysFacts(init);
      InsertKeyIncreasing(xs[|xs| - 1], SortedKeys(init));
      InsertKeyElems(xs[|xs| - 1], SortedKeys(init));
      assert xs == init + [xs[|xs| - 1]];
      ElemsConcat(init, [xs[|xs| - 1]]);
    }
  }

  /** `size()` per key, in the order of `keys`. */
  function Tally<K(==)>(xs: seq<K>, keys: seq<K>): (r: seq<(K, nat)>)
    ensures |r| == |keys|
    ensures forall i :: 0 <= i < |keys| ==> r[i] == (keys[i], Count(xs, keys[i]))
  {
    if keys == [] then [] else [(keys[0], Count(xs, keys[0]))] + Tally(xs, keys[1..])
  }

  /** The sum of the counts of a series. */
  function Total<K>(series: seq<(K, nat)>): nat
  {
    if series == [] then 0 else series[0].1 + Total(series[1..])
  }

  lemma {:induction false} TotalOfTally<K>(xs: seq<K>, keys: seq<K>)
    ensures Total(Tally(xs, keys)) == SumCounts(xs, keys)
  {
    if keys != [] {
      TotalOfTally(xs, keys[1..]);
      assert Tally(xs, keys)[1..] == Tally(xs, keys[1..]);
    }
  }

  /** The dates of the rows whose `created` is a time (`df['created'].notna()`), in row order. */
  function CreatedDates(rows: seq<Row>): (dates: seq<int>)
    requires forall i :: 0 <= i < |rows| ==> "created" in rows[i]
    ensures |dates| <= |rows|
    ensures forall i :: 0 <= i < |rows| && rows[i]["created"].CTime? ==> rows[i]["created"].t.date in dates
    ensures forall d :: d in dates ==>
      exists i :: 0 <= i < |rows| && rows[i]["created"].CTime? && rows[i]["created"].t.date == d
  {
    if rows == [] then []
    else
      var init := CreatedDates(rows[..|rows| - 1]);
      match rows[|rows| - 1]["created"]
      case CTime(t) => init + [t.date]
      case _ => init
  }

  /** The rows whose `created` is a time. */
  ghost function Created(rows: seq<Row>): set<int>
    requires forall i :: 0 <= i < |rows| ==> "created" in rows[i]
  {
    set i | 0 <= i < |rows| && rows[i]["created"].CTime?
  }

  /** The rows created on date `d`. */
  ghost function CreatedOn(rows: seq<Row>, d: int): set<int>
    requires forall i :: 0 <= i < |rows| ==> "created" in rows[i]
  {
    set i | 0 <= i < |rows| && rows[i]["created"].CTime? && rows[i]["created"].t.date == d
  }

  /** Removing the last row removes at most its own index from `CreatedOn`. */
  lemma CreatedOnStep(rows: seq<Row>, d: int)
    requires rows != [] && forall i :: 0 <= i < |rows| ==> "created" in rows[i]
    ensures var n := |rows| - 1; var c := rows[n]["created"];
      CreatedOn(rows, d) == CreatedOn(rows[..n], d) + (if c.CTime? && c.t.date == d then {n} else {})
  {
    var n := |rows| - 1;
    forall i | 0 <= i < n ensures rows[..n][i] == rows[i] {}
  }

  lemma CreatedStep(rows: seq<Row>)
    requires rows != [] && forall i :: 0 <= i < |rows| ==> "created" in rows[i]
    ensures var n := |rows| - 1;
      Created(rows) == Created(rows[..n]) + (if rows[n]["created"].CTime? then {n} else {})
  {
    var n := |rows| - 1;
    forall i | 0 <= i < n ensures rows[..n][i] == rows[i] {}
  }

  /** A date occurs in `CreatedDates` once for each row created on it. */
  lemma {:induction false} CreatedDatesCount(rows: seq<Row>, d: int)
    requires forall i :: 0 <= i < |rows| ==> "created" in rows[i]
    ensures Count(CreatedDates(rows), d) == |CreatedOn(rows, d)|
  {
    if rows != [] {
      var n := |rows| - 1;
      var before := CreatedDates(rows[..n]);
      CreatedDatesCount(rows[..n], d);
      CreatedOnStep(rows, d);
      AddIndex(CreatedOn(rows[..n], d), n);
      if rows[n]["created"].CTime? {
        var after := before + [rows[n]["created"].t.date];
        assert after[..|after| - 1] == before;
      }
    }
  }

  /** `CreatedDates` has one entry per row with a creation time. */
  lemma {:induction false} CreatedDatesSize(rows: seq<Row>)
    requires forall i :: 0 <= i < |rows| ==> "created" in rows[i]
    ensures |CreatedDates(rows)| == |Created(rows)|
  {
    if rows != [] {
      var n := |rows| - 1;
      CreatedDatesSize(rows[..n]);
      CreatedStep(rows);
      AddIndex(Created(rows[..n]), n);
    }
  }

  /** Both facts for every date. */
  lemma CreatedDatesCounts(rows: seq<Row>)
    requires forall i :: 0 <= i < |rows| ==> "created" in rows[i]
    ensures |CreatedDates(rows)| == |Created(rows)|
    ensures forall d :: Count(CreatedDates(rows), d) == |CreatedOn(rows, d)|
  {
    CreatedDatesSize(rows);
    forall d ensures Count(CreatedDates(rows), d) == |CreatedOn(rows, d)| {
      CreatedDatesCount(rows, d);
    }
  }

  /** Line 99: the number of issues created on each date, dates ascending. */
  function IssuesByDate(rows: seq<Row>): (series: seq<(int, nat)>)
    requires forall i :: 0 <= i < |rows| ==> "created" in rows[i]
    ensures forall i :: 0 <= i < |series| ==> series[i].1 == Count(CreatedDates(rows), series[i].0)
    ensures forall i :: 0 <= i < |series| ==> series[i].1 == |CreatedOn(rows, series[i].0)|
  {
    var dates := CreatedDates(rows);
    CreatedDatesCounts(rows);
    Tally(dates, SortedKeys(dates))
  }

  /** The series lists each creation date once, in ascending order, with a
      positive count. */
  lemma IssuesByDateKeys(rows: seq<Row>)
    requires forall i :: 0 <= i < |rows| ==> "created" in rows[i]
    ensures forall i, j :: 0 <= i < j < |IssuesByDate(rows)| ==> IssuesByDate(rows)[i].0 < IssuesByDate(rows)[j].0
    ensures forall i :: 0 <= i < |IssuesByDate(rows)| ==>
      IssuesByDate(rows)[i].1 > 0 && IssuesByDate(rows)[i].0 in CreatedDates(rows)
    ensures forall d :: d in CreatedDates(rows) ==> exists i :: 0 <= i < |IssuesByDate(rows)| && IssuesByDate(rows)[i].0 == d
  {
    var dates := CreatedDates(rows);
    var keys := SortedKeys(dates);
    var s := IssuesByDate(rows);
    SortedKeysFacts(dates);
    forall i | 0 <= i < |s| ensures s[i].1 > 0 && s[i].0 in dates {
      assert keys[i] in Elems(keys);
    }
    forall d | d in dates ensures exists i :: 0 <= i < |s| && s[i].0 == d {
      assert d in Elems(keys);
      var i :| 0 <= i < |keys| && keys[i] == d;
      assert s[i].0 == d;
    }
  }

  /** The counts add up to the number of rows with a creation time. */
  lemma IssuesByDateTotal(rows: seq<Row>)
    requires forall i :: 0 <= i < |rows| ==> "created" in rows[i]
    ensures Total(IssuesByDate(rows)) == |Created(rows)|
  {
    CreatedDatesCounts(rows);
    var dates := CreatedDates(rows);
    var keys := SortedKeys(dates);
    SortedKeysFacts(dates);
    IncreasingDistinct(keys);
    TotalOfTally(dates, keys);
    forall d | d in dates ensures d in keys {
      assert d in Elems(dates);
    }
    SumCountsCovering(dates, keys);
  }

  // Two-key tables

  /** The first keys of the pairs, in order. */
  function Firsts<A, B>(pairs: seq<(A, B)>): (r: seq<A>)
    ensures |r| == |pairs|
    ensures forall i :: 0 <= i < |pairs| ==> r[i] == pairs[i].0
  {
    if pairs == [] then [] else Firsts(pairs[..|pairs| - 1]) + [pairs[|pairs| - 1].0]
  }

  /** The second keys of the pairs, in order. */
  function Seconds<A, B>(pairs: seq<(A, B)>): (r: seq<B>)
    ensures |r| == |pairs|
    ensures forall i :: 0 <= i < |pairs| ==> r[i] == pairs[i].1
  {
    if pairs == [] then [] else Seconds(pairs[..|pairs| - 1]) + [pairs[|pairs| - 1].1]
  }

  /** The second keys of the pairs whose first key is `a`, in order. */
  function SecondsWith<A(==), B>(pairs: seq<(A, B)>, a: A): seq<B>
  {
    if pairs == [] then []
    else
      var init := SecondsWith(pairs[..|pairs| - 1], a);
      if pairs[|pairs| - 1].0 == a then init + [pairs[|pairs| - 1].1] else init
  }

  lemma {:induction false} CountPair<A, B>(pairs: seq<(A, B)>, a: A, b: B)
    ensures Count(pairs, (a, b)) == Count(SecondsWith(pairs, a), b)
  {
    if pairs != [] {
      var init := pairs[..|pairs| - 1];
      CountPair(init, a, b);
      var last := pairs[|pairs| - 1];
      assert Count(pairs, (a, b)) == (if last == (a, b) then 1 else 0) + Count(init, (a, b));
      var s := SecondsWith(init, a);
      if last.0 == a {
        var s' := s + [last.1];
        assert s'[..|s'| - 1] == s;
        assert Count(s', b) == (if last.1 == b then 1 else 0) + Count(s, b);
      }
    }
  }

  lemma {:induction false} SecondsWithSize<A, B>(pairs: seq<(A, B)>, a: A)
    ensures |SecondsWith(pairs, a)| == Count(Firsts(pairs), a)
  {
    if pairs != [] {
      var init := pairs[..|pairs| - 1];
      SecondsWithSize(init, a);
      assert Firsts(pairs)[..|pairs| - 1] == Firsts(init);
    }
  }

  lemma {:induction false} SecondsWithFrom<A, B>(pairs: seq<(A, B)>, a: A, b: B)
    requires b in SecondsWith(pairs, a)
    ensures (a, b) in pairs
  {
    var init := pairs[..|pairs| - 1];
    if pairs[|pairs| - 1] != (a, b) {
      SecondsWithFrom(init, a, b);
    }
  }

  /** One line of the table: the count of each `(a, b)` for the given `b` keys. */
  function GridRow<A(==), B(==)>(pairs: seq<(A, B)>, a: A, colKeys: seq<B>): (r: seq<nat>)
    ensures |r| == |colKeys|
    ensures forall j :: 0 <= j < |colKeys| ==> r[j] == Count(pairs, (a, colKeys[j]))
  {
    if colKeys == [] then [] else [Count(pairs, (a, colKeys[0]))] + GridRow(pairs, a, colKeys[1..])
  }

  /** `groupby([a, b]).size().unstack(fill_value=0)`: one line per `a` key, one
      column per `b` key; a combination that never occurs counts 0. */
  function Grid<A(==), B(==)>(pairs: seq<(A, B)>, rowKeys: seq<A>, colKeys: seq<B>): (g: seq<seq<nat>>)
    ensures |g| == |rowKeys|
    ensures forall i :: 0 <= i < |rowKeys| ==> g[i] == GridRow(pairs, rowKeys[i], colKeys)
  {
    if rowKeys == [] then [] else [GridRow(pairs, rowKeys[0], colKeys)] + Grid(pairs, rowKeys[1..], colKeys)
  }

  function Sum(ns: seq<nat>): nat
  {
    if ns == [] then 0 else ns[0] + Sum(ns[1..])
  }

  /** The sum of every cell of a table. */
  function GridTotal(g: seq<seq<nat>>): nat
  {
    if g == [] then 0 else Sum(g[0]) + GridTotal(g[1..])
  }

  lemma {:induction false} SumOfGridRow<A, B>(pairs: seq<(A, B)>, a: A, colKeys: seq<B>)
    ensures Sum(GridRow(pairs, a, colKeys)) == SumCounts(SecondsWith(pairs, a), colKeys)
  {
    if colKeys != [] {
      SumOfGridRow(pairs, a, colKeys[1..]);
      CountPair(pairs, a, colKeys[0]);
      assert GridRow(pairs, a, colKeys)[1..] == GridRow(pairs, a, colKeys[1..]);
    }
  }

  /** A line adds up to the number of pairs with its key, when the column keys
      are distinct and cover every second key. */
  lemma RowTotal<A, B>(pairs: seq<(A, B)>, a: A, colKeys: seq<B>)
    requires NoDuplicates(colKeys)
    requires forall i :: 0 <= i < |pairs| ==> pairs[i].1 in colKeys
    ensures Sum(GridRow(pairs, a, colKeys)) == Count(Firsts(pairs), a)
  {
    var s := SecondsWith(pairs, a);
    forall b | b in s ensures b in colKeys {
      SecondsWithFrom(pairs, a, b);
    }
    SumOfGridRow(pairs, a, colKeys);
    SumCountsCovering(s, colKeys);
    SecondsWithSize(pairs, a);
  }

  lemma {:induction false} GridTotalCounts<A, B>(pairs: seq<(A, B)>, rowKeys: seq<A>, colKeys: seq<B>)
    requires NoDuplicates(colKeys)
    requires forall i :: 0 <= i < |pairs| ==> pairs[i].1 in colKeys
    ensures GridTotal(Grid(pairs, rowKeys, colKeys)) == SumCounts(Firsts(pairs), rowKeys)
  {
    if rowKeys != [] {
      GridTotalCounts(pairs, rowKeys[1..], colKeys);
      RowTotal(pairs, rowKeys[0], colKeys);
      assert Grid(pairs, rowKeys, colKeys)[1..] == Grid(pairs, rowKeys[1..], colKeys);
    }
  }

  /** The cells of a table whose keys are distinct and cover every pair add up to
      the number of pairs. */
  lemma GridTotalIsSize<A, B>(pairs: seq<(A, B)>, rowKeys: seq<A>, colKeys: seq<B>)
    requires NoDuplicates(rowKeys) && NoDuplicates(colKeys)
    requires forall i :: 0 <= i < |pairs| ==> pairs[i].0 in rowKeys && pairs[i].1 in colKeys
    ensures GridTotal(Grid(pairs, rowKeys, colKeys)) == |pairs|
  {
    GridTotalCounts(pairs, rowKeys, colKeys);
    var firsts := Firsts(pairs);
    forall x | x in firsts ensures x in rowKeys {
      var k :| 0 <= k < |firsts| && firsts[k] == x;
      assert pairs[k].0 == x;
    }
    SumCountsCovering(firsts, rowKeys);
  }

  /** The two projects the priority table is restricted to. */
  predicate Tracked(project: Cell)
  {
    project == CStr("SCRUM") || project == CStr("CLD")
  }

  /** Lines 103-104: the `(project, priority)` keys of the SCRUM and CLD rows; a
      row with a null priority has no group. */
  function PriorityPairs(rows: seq<Row>): (pairs: seq<(Cell, Cell)>)
    requires forall i :: 0 <= i < |rows| ==> "project" in rows[i] && "priority" in rows[i]
    ensures |pairs| <= |rows|
    ensures forall i :: 0 <= i < |pairs| ==> Tracked(pairs[i].0) && pairs[i].1 != CNull
    ensures forall i :: 0 <= i < |rows| && Tracked(rows[i]["project"]) && rows[i]["priority"] != CNull ==>
      (rows[i]["project"], rows[i]["priority"]) in pairs
    ensures forall p :: p in pairs ==> exists i :: 0 <= i < |rows| && (rows[i]["project"], rows[i]["priority"]) == p
  {
    if rows == [] then []
    else
      var init := PriorityPairs(rows[..|rows| - 1]);
      var row := rows[|rows| - 1];
      if Tracked(row["project"]) && row["priority"] != CNull then init + [(row["project"], row["priority"])]
      else init
  }

  /** The SCRUM and CLD rows that have a priority. */
  ghost function Prioritised(rows: seq<Row>): set<int>
    requires forall i :: 0 <= i < |rows| ==> "project" in rows[i] && "priority" in rows[i]
  {
    set i | 0 <= i < |rows| && Tracked(rows[i]["project"]) && rows[i]["priority"] != CNull
  }

  /** Those of them with project and priority `p`. */
  ghost function PriorityRows(rows: seq<Row>, p: (Cell, Cell)): set<int>
    requires forall i :: 0 <= i < |rows| ==> "project" in rows[i] && "priority" in rows[i]
  {
    set i | 0 <= i < |rows| && Tracked(rows[i]["project"]) && rows[i]["priority"] != CNull && (rows[i]["project"], rows[i]["priority"]) == p
  }

  lemma PrioritisedStep(rows: seq<Row>)
    requires rows != [] && forall i :: 0 <= i < |rows| ==> "project" in rows[i] && "priority" in rows[i]
    ensures var n := |rows| - 1;
      Prioritised(rows) == Prioritised(rows[..n]) + (if Tracked(rows[n]["project"]) && rows[n]["priority"] != CNull then {n} else {})
  {
    var n := |rows| - 1;
    forall i | 0 <= i < n ensures rows[..n][i] == rows[i] {}
  }

  lemma PriorityRowsStep(rows: seq<Row>, p: (Cell, Cell))
    requires rows != [] && forall i :: 0 <= i < |rows| ==> "project" in rows[i] && "priority" in rows[i]
    ensures var n := |rows| - 1;
      PriorityRows(rows, p) == PriorityRows(rows[..n], p) + (if Tracked(rows[n]["project"]) && rows[n]["priority"] != CNull && (rows[n]["project"], rows[n]["priority"]) == p then {n} else {})
  {
    var n := |rows| - 1;
    forall i | 0 <= i < n ensures rows[..n][i] == rows[i] {}
  }

  /** A pair occurs in `PriorityPairs` once for each row with that project and priority. */
  lemma {:induction false} PriorityPairsCount(rows: seq<Row>, p: (Cell, Cell))
    requires forall i :: 0 <= i < |rows| ==> "project" in rows[i] && "priority" in rows[i]
    ensures Count(PriorityPairs(rows), p) == |PriorityRows(rows, p)|
  {
    if rows != [] {
      var n := |rows| - 1;
      var before := PriorityPairs(rows[..n]);
      PriorityPairsCount(rows[..n], p);
      PriorityRowsStep(rows, p);
      AddIndex(PriorityRows(rows[..n], p), n);
      if Tracked(rows[n]["project"]) && rows[n]["priority"] != CNull {
        var after := before + [(rows[n]["project"], rows[n]["priority"])];
        assert after[..|after| - 1] == before;
      }
    }
  }

  /** `PriorityPairs` has one entry per SCRUM or CLD row with a priority. */
  lemma {:induction false} PriorityPairsSize(rows: seq<Row>)
    requires forall i :: 0 <= i < |rows| ==> "project" in rows[i] && "priority" in rows[i]
    ensures |PriorityPairs(rows)| == |Prioritised(rows)|
  {
    if rows != [] {
      var n := |rows| - 1;
      PriorityPairsSize(rows[..n]);
      PrioritisedStep(rows);
      AddIndex(Prioritised(rows[..n]), n);
    }
  }

  /** Both facts, for every key. */
  lemma PriorityPairsCounts(rows: seq<Row>)
    requires forall i :: 0 <= i < |rows| ==> "project" in rows[i] && "priority" in rows[i]
    ensures |PriorityPairs(rows)| == |Prioritised(rows)|
    ensures forall p :: Count(PriorityPairs(rows), p) == |PriorityRows(rows, p)|
  {
    PriorityPairsSize(rows);
    forall p ensures Count(PriorityPairs(rows), p) == |PriorityRows(rows, p)| {
      PriorityPairsCount(rows, p);
    }
  }

  /** The project-by-priority table, keys in order of first appearance. */
  function PriorityGrid(rows: seq<Row>): (g: seq<seq<nat>>)
    requires forall i :: 0 <= i < |rows| ==> "project" in rows[i] && "priority" in rows[i]
    ensures var pairs := PriorityPairs(rows);
      var projects, priorities := Dedup(Firsts(pairs)), Dedup(Seconds(pairs));
      && |g| == |projects|
      && (forall i :: 0 <= i < |g| ==> |g[i]| == |priorities|)
      && forall i, j :: 0 <= i < |projects| && 0 <= j < |priorities| ==>
           g[i][j] == |PriorityRows(rows, (projects[i], priorities[j]))|
  {
    var pairs := PriorityPairs(rows);
    PriorityPairsCounts(rows);
    Grid(pairs, Dedup(Firsts(pairs)), Dedup(Seconds(pairs)))
  }

  /** The cells of the priority table add up to the SCRUM and CLD rows that have a priority. */
  lemma PriorityGridTotal(rows: seq<Row>)
    requires forall i :: 0 <= i < |rows| ==> "project" in rows[i] && "priority" in rows[i]
    ensures GridTotal(PriorityGrid(rows)) == |Prioritised(rows)|
  {
    PriorityPairsSize(rows);
    var pairs := PriorityPairs(rows);
    var firsts, seconds := Firsts(pairs), Seconds(pairs);
    assert forall i :: 0 <= i < |pairs| ==> pairs[i].0 == firsts[i] && pairs[i].1 == seconds[i];
    GridTotalIsSize(pairs, Dedup(firsts), Dedup(seconds));
  }

  /** Lines 151-153: the `(day, hour)` of each row whose timestamp is a time. */
  function HourPairs(rows: seq<Row>): (pairs: seq<(int, int)>)
    requires forall i :: 0 <= i < |rows| ==> "timestamp" in rows[i]
    ensures |pairs| <= |rows|
    ensures forall i :: 0 <= i < |rows| && rows[i]["timestamp"].CTime? ==>
      (rows[i]["timestamp"].t.date, rows[i]["timestamp"].t.hour) in pairs
    ensures forall p :: p in pairs ==>
      exists i :: 0 <= i < |rows| && rows[i]["timestamp"].CTime? && (rows[i]["timestamp"].t.date, rows[i]["timestamp"].t.hour) == p
  {
    if rows == [] then []
    else
      var init := HourPairs(rows[..|rows| - 1]);
      match rows[|rows| - 1]["timestamp"]
      case CTime(t) => init + [(t.date, t.hour)]
      case _ => init
  }

  /** The rows whose timestamp is a time. */
  ghost function Timestamped(rows: seq<Row>): set<int>
    requires forall i :: 0 <= i < |rows| ==> "timestamp" in rows[i]
  {
    set i | 0 <= i < |rows| && rows[i]["timestamp"].CTime?
  }

  /** Those of them at day and hour `p`. */
  ghost function AtHour(rows: seq<Row>, p: (int, int)): set<int>
    requires forall i :: 0 <= i < |rows| ==> "timestamp" in rows[i]
  {
    set i | 0 <= i < |rows| && rows[i]["timestamp"].CTime? && (rows[i]["timestamp"].t.date, rows[i]["timestamp"].t.hour) == p
  }

  lemma TimestampedStep(rows: seq<Row>)
    requires rows != [] && forall i :: 0 <= i < |rows| ==> "timestamp" in rows[i]
    ensures var n := |rows| - 1;
      Timestamped(rows) == Timestamped(rows[..n]) + (if rows[n]["timestamp"].CTime? then {n} else {})
  {
    var n := |rows| - 1;
    forall i | 0 <= i < n ensures rows[..n][i] == rows[i] {}
  }

  lemma AtHourStep(rows: seq<Row>, p: (int, int))
    requires rows != [] && forall i :: 0 <= i < |rows| ==> "timestamp" in rows[i]
    ensures var n := |rows| - 1;
      AtHour(rows, p) == AtHour(rows[..n], p) + (if rows[n]["timestamp"].CTime? && (rows[n]["timestamp"].t.date, rows[n]["timestamp"].t.hour) == p then {n} else {})
  {
    var n := |rows| - 1;
    forall i | 0 <= i < n ensures rows[..n][i] == rows[i] {}
  }

  /** A `(day, hour)` occurs in `HourPairs` once for each row at that day and hour. */
  lemma {:induction false} HourPairsCount(rows: seq<Row>, p: (int, int))
    requires forall i :: 0 <= i < |rows| ==> "timestamp" in rows[i]
    ensures Count(HourPairs(rows), p) == |AtHour(rows, p)|
  {
    if rows != [] {
      var n := |rows| - 1;
      var before := HourPairs(rows[..n]);
      HourPairsCount(rows[..n], p);
      AtHourStep(rows, p);
      AddIndex(AtHour(rows[..n], p), n);
      if rows[n]["timestamp"].CTime? {
        var after := before + [(rows[n]["timestamp"].t.date, rows[n]["timestamp"].t.hour)];
        assert after[..|after| - 1] == before;
      }
    }
  }

  /** `HourPairs` has one entry per row with a timestamp. */
  lemma {:induction false} HourPairsSize(rows: seq<Row>)
    requires forall i :: 0 <= i < |rows| ==> "timestamp" in rows[i]
    ensures |HourPairs(rows)| == |Timestamped(rows)|
  {
    if rows != [] {
      var n := |rows| - 1;
      HourPairsSize(rows[..n]);
      TimestampedStep(rows);
      AddIndex(Timestamped(rows[..n]), n);
    }
  }

  /** Both facts, for every key. */
  lemma HourPairsCounts(rows: seq<Row>)
    requires forall i :: 0 <= i < |rows| ==> "timestamp" in rows[i]
    ensures |HourPairs(rows)| == |Timestamped(rows)|
    ensures forall p :: Count(HourPairs(rows), p) == |AtHour(rows, p)|
  {
    HourPairsSize(rows);
    forall p ensures Count(HourPairs(rows), p) == |AtHour(rows, p)| {
      HourPairsCount(rows, p);
    }
  }

  /** The day-by-hour table, days and hours ascending. */
  function HourGrid(rows: seq<Row>): (g: seq<seq<nat>>)
    requires forall i :: 0 <= i < |rows| ==> "timestamp" in rows[i]
    ensures var pairs := HourPairs(rows);
      var days, hours := SortedKeys(Firsts(pairs)), SortedKeys(Seconds(pairs));
      && |g| == |days|
      && (forall i :: 0 <= i < |g| ==> |g[i]| == |hours|)
      && forall i, j :: 0 <= i < |days| && 0 <= j < |hours| ==> g[i][j] == |AtHour(rows, (days[i], hours[j]))|
  {
    var pairs := HourPairs(rows);
    HourPairsCounts(rows);
    Grid(pairs, SortedKeys(Firsts(pairs)), SortedKeys(Seconds(pairs)))
  }

  /** The cells of the heatmap add up to the rows that have a timestamp. */
  lemma HourGridTotal(rows: seq<Row>)
    requires forall i :: 0 <= i < |rows| ==> "timestamp" in rows[i]
    ensures GridTotal(HourGrid(rows)) == |Timestamped(rows)|
  {
    HourPairsSize(rows);
    var pairs := HourPairs(rows);
    var days, hours := SortedKeys(Firsts(pairs)), SortedKeys(Seconds(pairs));
    SortedKeysFacts(Firsts(pairs));
    SortedKeysFacts(Seconds(pairs));
    IncreasingDistinct(days);
    IncreasingDistinct(hours);
    forall i | 0 <= i < |pairs| ensures pairs[i].0 in days && pairs[i].1 in hours {
      assert pairs[i].0 == Firsts(pairs)[i] && pairs[i].0 in Elems(Firsts(pairs));
      assert pairs[i].1 == Seconds(pairs)[i] && pairs[i].1 in Elems(Seconds(pairs));
    }
    GridTotalIsSize(pairs, days, hours);
  }
}

=== FILE: frame.dfy ===
/** A pandas DataFrame as the script uses it: an ordered header that may repeat
    a name, and rows that give one value per column name. The script changes its
    frames in place (new columns, relabelled headers, column selections), so the
    frame is a class and those changes are its methods. */
module Frames {
  import opened Values
  import opened Seqs

  /** What stops a step of the script: a missing column (KeyError), `safe_get`
      calling `.get` on a value that is not a mapping (AttributeError), or the
      `.str` accessor refusing a column that holds no strings (also AttributeError). */
  datatype FrameError = KeyError(column: string) | AttributeError(field: string) | NotStrings(column: string)

  /** Every row has a value for exactly the names in the header. */
  predicate WellFormed(columns: seq<string>, rows: seq<Row>)
  {
    forall i :: 0 <= i < |rows| ==> rows[i].Keys == Elems(columns)
  }

  /** The header after `df[name] = ...`: an existing name keeps its place, a new one is appended. */
  function AddName(columns: seq<string>, name: string): (r: seq<string>)
    ensures Elems(r) == Elems(columns) + {name}
    ensures columns <= r
  {
    if name in columns then columns else columns + [name]
  }

  /** The header after relabelling every column with `f`. */
  function Relabelled(columns: seq<string>, f: string -> string): (r: seq<string>)
    ensures |r| == |columns|
    ensures forall i :: 0 <= i < |columns| ==> r[i] == f(columns[i])
  {
    seq(|columns|, i requires 0 <= i < |columns| => f(columns[i]))
  }

  /** A label that `f` never produces is absent from the relabelled header. */
  lemma RelabelledAvoids(columns: seq<string>, f: string -> string, banned: string)
    requires forall name :: f(name) != banned
    ensures banned !in Relabelled(columns, f)
  {
  }

  /** One row after relabelling the header with `f`. When several columns get the
      same new label, the row keeps the value of the first of them. */
  function RelabelRow(columns: seq<string>, f: string -> string, row: Row): (r: Row)
    requires Elems(columns) <= row.Keys
    ensures r.Keys == Elems(Relabelled(columns, f))
    ensures forall n :: n in r ==> r[n] == row[columns[First(Relabelled(columns, f), n)]]
  {
    if columns == [] then map[]
    else
      var rest := RelabelRow(columns[1..], f, row);
      var labels, tail := Relabelled(columns, f), Relabelled(columns[1..], f);
      assert labels == [f(columns[0])] + tail && labels[1..] == tail;
      assert columns == [columns[0]] + columns[1..];
      ElemsConcat([columns[0]], columns[1..]);
      ElemsConcat([f(columns[0])], tail);
      forall n | n in rest && n != f(columns[0]) ensures First(labels, n) == 1 + First(tail, n) {
      }
      rest[f(columns[0]) := row[columns[0]]]
  }

  /** The rows after `df[name] = values`. */
  function AssignRows(rows: seq<Row>, name: string, values: seq<Cell>): (r: seq<Row>)
    requires |values| == |rows|
    ensures |r| == |rows|
    ensures forall i :: 0 <= i < |rows| ==> r[i] == rows[i][name := values[i]]
  {
    seq(|rows|, i requires 0 <= i < |rows| => rows[i][name := values[i]])
  }

  /** One row after `df[keep]`: only the selected names remain. */
  function Restrict(row: Row, keep: set<string>): (r: Row)
    ensures r.Keys == row.Keys * keep
    ensures forall c :: c in r ==> r[c] == row[c]
  {
    map c | c in row.Keys && c in keep :: row[c]
  }

  class DataFrame {
    var columns: seq<string>
    var rows: seq<Row>

    predicate Valid()
      reads this
    {
      WellFormed(columns, rows)
    }

    constructor (columns: seq<string>, rows: seq<Row>)
      requires WellFormed(columns, rows)
      ensures Valid()
      ensures this.columns == columns && this.rows == rows
    {
      this.columns := columns;
      this.rows := rows;
    }

    /** `df.empty`: no rows, or no columns. */
    predicate Empty()
      reads this
    {
      |rows| == 0 || |columns| == 0
    }

    /** `df[name]`, one value per row. */
    function Column(name: string): (values: seq<Cell>)
      reads this
      requires Valid() && name in columns
      ensures |values| == |rows|
      ensures forall i :: 0 <= i < |rows| ==> values[i] == rows[i][name]
    {
      var rs := rows;
      seq(|rs|, i requires 0 <= i < |rs| => rs[i][name])
    }

    /** `df[name] = values`. */
    method Assign(name: string, values: seq<Cell>)
      requires Valid() && |values| == |rows|
      modifies this
      ensures Valid()
      ensures columns == AddName(old(columns), name)
      ensures rows == AssignRows(old(rows), name, values)
    {
      columns := AddName(columns, name);
      rows := AssignRows(rows, name, values);
    }

    /** `df.columns = df.columns.map(f)` and `df.rename(columns=...)`: every header
        label is replaced by its image under `f`, in place. */
    method Relabel(f: string -> string)
      requires Valid()
      modifies this
      ensures Valid()
      ensures columns == Relabelled(old(columns), f)
      ensures |rows| == |old(rows)|
      ensures forall i :: 0 <= i < |rows| ==> rows[i] == RelabelRow(old(columns), f, old(rows[i]))
    {
      var before, rs := columns, rows;
      columns := Relabelled(columns, f);
      rows := seq(|rs|, i requires 0 <= i < |rs| => RelabelRow(before, f, rs[i]));
    }

    /** `df = df[keep]` for labels that are all present. */
    method Select(keep: seq<string>)
      requires Valid() && Elems(keep) <= Elems(columns)
      modifies this
      ensures Valid()
      ensures columns == keep
      ensures |rows| == |old(rows)|
      ensures forall i :: 0 <= i < |rows| ==> rows[i] == Restrict(old(rows[i]), Elems(keep))
    {
      columns := keep;
      var rs := rows;
      rows := seq(|rs|, i requires 0 <= i < |rs| => Restrict(rs[i], Elems(keep)));
    }

    /** `df = df.loc[:, ~df.columns.duplicated()]`: the first column of each name stays. */
    method DropDuplicateColumns()
      requires Valid()
      modifies this
      ensures Valid()
      ensures columns == Dedup(old(columns))
      ensures rows == old(rows)
    {
      columns := Dedup(columns);
      assert Elems(columns) == Elems(old(columns));
    }
  }
}

=== FILE: manual.dfy ===
/** The adapter for an uploaded manual-actions CSV: it coerces the `timestamp`
    column, tags every row as `manual`, normalises and renames the headers,
    turns `time_to_create` into a non-negative number of seconds rounded to two
    decimals, keeps only the known columns and adds an empty `response` column. */
module Manual {
  import opened Wrappers
  import opened Values
  import opened Seqs
  import opened Text
  import opened Frames

  /** The header normalisation `.str.strip().str.lower()`. */
  function Clean(name: string): (r: string)
    ensures |r| <= |name|
    ensures forall i :: 0 <= i < |r| ==> !('A' <= r[i] <= 'Z')
  {
    Lower(Strip(name))
  }

  /** The renaming `{'tool_used': 'tool_name', 'user': 'name', 'time_taken_sec': 'time_to_create'}`. */
  function Rename(name: string): (r: string)
    ensures r != "user" && r != "tool_used" && r != "time_taken_sec"
    ensures r != name ==> name == "user" || name == "tool_used" || name == "time_taken_sec"
  {
    if name == "tool_used" then "tool_name"
    else if name == "user" then "name"
    else if name == "time_taken_sec" then "time_to_create"
    else name
  }

  /** The columns kept from the manual table, in the order they are kept. */
  const KeepCols: seq<string> := ["timestamp", "action_type", "issue_key", "name", "tool_name", "time_to_create", "source"]

  /** `Series.round(2)`: the nearest multiple of 0.01, ties to the even multiple. */
  function Round2(x: real): (r: real)
    ensures x >= 0.0 ==> r >= 0.0
    ensures -0.005 <= r - x <= 0.005
  {
    var y := x * 100.0;
    var f := y.Floor;
    var d := y - f as real;
    var n := if d < 0.5 then f else if d > 0.5 then f + 1 else if f % 2 == 0 then f else f + 1;
    n as real / 100.0
  }

  function Abs(x: real): (r: real)
    ensures r >= 0.0 && (r == x || r == -x)
  {
    if x < 0.0 then -x else x
  }

  /** One cell of `pd.to_numeric(..., errors='coerce').abs().round(2)`. */
  function Duration(lib: Library, c: Cell): (r: Cell)
    ensures r == CNull || (r.CNum? && r.n >= 0.0)
    ensures r == CNull <==> lib.toNumeric(c) == None
    ensures r.CNum? ==> -0.005 <= r.n - Abs(lib.toNumeric(c).value) <= 0.005
  {
    match ToNumeric(lib, c)
    case CNum(x) => CNum(Round2(Abs(x)))
    case _ => CNull
  }

  /** The header once `source` is added and the labels are cleaned and renamed. */
  function ManualHeader(columns: seq<string>): (h: seq<string>)
    ensures |h| == |AddName(columns, "source")|
  {
    Relabelled(Relabelled(AddName(columns, "source"), Clean), Rename)
  }

  /** Where the adapter stops: the literal `timestamp` header is read before the
      headers are cleaned, `time_to_create` after they are renamed. */
  function AdapterError(columns: seq<string>): (e: Option<FrameError>)
    ensures e.Some? ==> e.value == KeyError("timestamp") || e.value == KeyError("time_to_create")
    ensures e == Some(KeyError("timestamp")) <==> "timestamp" !in columns
    ensures e == None ==> "timestamp" in columns && "time_to_create" in ManualHeader(columns)
  {
    if "timestamp" !in columns then Some(KeyError("timestamp"))
    else if "time_to_create" !in ManualHeader(columns) then Some(KeyError("time_to_create"))
    else None
  }

  /** The columns kept by `manual_df[[col for col in keep_cols if col in manual_df.columns]]`. */
  function Kept(columns: seq<string>): seq<string>
  {
    Filter(KeepCols, Elems(ManualHeader(columns)))
  }

  /** The header the adapter leaves. */
  function ManualColumns(columns: seq<string>): seq<string>
  {
    AddName(Kept(columns), "response")
  }

  /** One row after lines 29-36: coerced, tagged and carried over to the cleaned,
      renamed header. */
  function TaggedRow(lib: Library, columns: seq<string>, row: Row): (r: Row)
    requires Elems(columns) <= row.Keys && "timestamp" in columns
    ensures r.Keys == Elems(ManualHeader(columns))
  {
    var r1 := row["timestamp" := ToDatetime(lib, row["timestamp"])]["source" := CStr("manual")];
    var c1 := AddName(columns, "source");
    RelabelRow(Relabelled(c1, Clean), Rename, RelabelRow(c1, Clean, r1))
  }

  /** One row after the adapter, for a table whose header was `columns`. */
  function ManualRow(lib: Library, columns: seq<string>, row: Row): (r: Row)
    requires Elems(columns) <= row.Keys && AdapterError(columns) == None
    ensures "response" in r && r["response"] == CNull
  {
    KeptFacts(columns);
    var r3 := TaggedRow(lib, columns, row);
    var r4 := r3["time_to_create" := Duration(lib, r3["time_to_create"])];
    var r5 := Restrict(r4, Elems(Kept(columns)));
    if "response" in Kept(columns) then r5 else r5["response" := CNull]
  }

  /** Lines 29-30: coerce the literal `timestamp` column and tag the rows. */
  method TagRows(frame: DataFrame, lib: Library)
    requires frame.Valid() && "timestamp" in frame.columns
    modifies frame
    ensures frame.Valid()
    ensures frame.columns == AddName(old(frame.columns), "source")
    ensures |frame.rows| == |old(frame.rows)|
    ensures forall i :: 0 <= i < |frame.rows| ==>
      frame.rows[i] == old(frame.rows[i])["timestamp" := ToDatetime(lib, old(frame.rows[i])["timestamp"])]
                                         ["source" := CStr("manual")]
  {
    ghost var rows0 := frame.rows;
    var stamps := DatetimeColumn(lib, frame.Column("timestamp"));
    frame.Assign("timestamp", stamps);
    var tags := seq(|frame.rows|, i => CStr("manual"));
    frame.Assign("source", tags);
    assert frame.rows == AssignRows(AssignRows(rows0, "timestamp", stamps), "source", tags);
  }

  /** Lines 31-36: the header labels are stripped and lower-cased, then renamed. */
  method CleanHeader(frame: DataFrame)
    requires frame.Valid()
    modifies frame
    ensures frame.Valid()
    ensures frame.columns == Relabelled(Relabelled(old(frame.columns), Clean), Rename)
    ensures |frame.rows| == |old(frame.rows)|
    ensures forall i :: 0 <= i < |frame.rows| ==>
      frame.rows[i] == RelabelRow(Relabelled(old(frame.columns), Clean), Rename,
                                  RelabelRow(old(frame.columns), Clean, old(frame.rows[i])))
  {
    frame.Relabel(Clean);
    frame.Relabel(Rename);
  }

  /** Lines 37-41, once the headers are cleaned and renamed: the duration
      column, the selection of the known columns and the empty `response`. */
  method Project(frame: DataFrame, lib: Library)
    requires frame.Valid() && "time_to_create" in frame.columns
    modifies frame
    ensures frame.Valid()
    ensures frame.columns == AddName(Filter(KeepCols, Elems(old(frame.columns))), "response")
    ensures |frame.rows| == |old(frame.rows)|
    ensures forall i :: 0 <= i < |frame.rows| ==>
      var kept := Filter(KeepCols, Elems(old(frame.columns)));
      var r5 := Restrict(old(frame.rows[i])["time_to_create" := Duration(lib, old(frame.rows[i])["time_to_create"])],
                         Elems(kept));
      frame.rows[i] == if "response" in kept then r5 else r5["response" := CNull]
  {
    ghost var rows0 := frame.rows;
    var raw := frame.Column("time_to_create");
    var durations := seq(|raw|, i requires 0 <= i < |raw| => Duration(lib, raw[i]));
    frame.Assign("time_to_create", durations);
    ghost var rows1 := frame.rows;
    var kept := Filter(KeepCols, Elems(frame.columns));
    frame.Select(kept);
    ghost var rows2 := frame.rows;
    if "response" !in frame.columns {
      var nulls := seq(|frame.rows|, i => CNull);
      frame.Assign("response", nulls);
      assert frame.rows == AssignRows(rows2, "response", nulls);
    }
  }

  /** Lines 29-41 on the uploaded table, in place. */
  method AdaptManual(frame: DataFrame, lib: Library) returns (err: Option<FrameError>)
    requires frame.Valid()
    modifies frame
    ensures frame.Valid()
    ensures err == AdapterError(old(frame.columns))
    ensures |frame.rows| == |old(frame.rows)|
    ensures err == None ==> frame.columns == ManualColumns(old(frame.columns))
    ensures err == None ==> forall i :: 0 <= i < |frame.rows| ==>
      frame.rows[i] == ManualRow(lib, old(frame.columns), old(frame.rows[i]))
  {
    if "timestamp" !in frame.columns {
      return Some(KeyError("timestamp"));
    }
    ghost var cols0, rows0 := frame.columns, frame.rows;
    TagRows(frame, lib);
    ghost var cols1, rows1 := frame.columns, frame.rows;
    CleanHeader(frame);
    assert frame.columns == ManualHeader(cols0);
    if "time_to_create" !in frame.columns {
      return Some(KeyError("time_to_create"));
    }
    ghost var rows3 := frame.rows;
    Project(frame, lib);
    forall i | 0 <= i < |frame.rows|
      ensures frame.rows[i] == ManualRow(lib, cols0, rows0[i])
    {
      assert rows3[i] == TaggedRow(lib, cols0, rows0[i]);
    }
    return None;
  }

  lemma KeepColsDistinct()
    ensures NoDuplicates(KeepCols) && "response" !in KeepCols
  {
  }

  /** The adapted header is the `keep_cols` entries present, in `keep_cols` order,
      followed by `response`. */
  lemma ManualColumnsShape(columns: seq<string>)
    ensures ManualColumns(columns) == Kept(columns) + ["response"]
    ensures forall i :: 0 <= i < |Kept(columns)| ==> Kept(columns)[i] in KeepCols && Kept(columns)[i] in ManualHeader(columns)
    ensures forall i :: 0 <= i < |KeepCols| && KeepCols[i] in ManualHeader(columns) ==> KeepCols[i] in Kept(columns)
    ensures forall i, j :: 0 <= i < j < |Kept(columns)| ==> First(KeepCols, Kept(columns)[i]) < First(KeepCols, Kept(columns)[j])
  {
    var k := Kept(columns);
    KeepColsDistinct();
    FilterOrder(KeepCols, Elems(ManualHeader(columns)));
    assert "response" !in k by {
      forall i | 0 <= i < |k| ensures k[i] != "response" {
        assert k[i] in KeepCols;
      }
    }
  }

  /** What the selection keeps once both columns the adapter reads exist. */
  lemma KeptFacts(columns: seq<string>)
    requires AdapterError(columns) == None
    ensures Elems(Kept(columns)) <= Elems(ManualHeader(columns))
    ensures "time_to_create" in Kept(columns) && "response" !in Kept(columns)
  {
    KeepColsDistinct();
    assert "time_to_create" in KeepCols;
  }

  /** Every adapted row has a value for exactly the adapted header. */
  lemma ManualRowKeys(lib: Library, columns: seq<string>, row: Row)
    requires Elems(columns) <= row.Keys && AdapterError(columns) == None
    ensures ManualRow(lib, columns, row).Keys == Elems(ManualColumns(columns))
  {
    KeptFacts(columns);
  }

  /** Every adapted row has a `time_to_create` that is null or a non-negative number. */
  lemma ManualDurationNonNegative(lib: Library, columns: seq<string>, row: Row)
    requires Elems(columns) <= row.Keys && AdapterError(columns) == None
    ensures "time_to_create" in ManualRow(lib, columns, row)
    ensures var d := ManualRow(lib, columns, row)["time_to_create"]; d == CNull || (d.CNum? && d.n >= 0.0)
  {
    KeptFacts(columns);
    var r3 := TaggedRow(lib, columns, row);
    assert ManualRow(lib, columns, row)["time_to_create"] == Duration(lib, r3["time_to_create"]);
  }

  /** The three renamed labels never survive the renaming. */
  lemma HeaderDropsOldNames(columns: seq<string>)
    ensures "user" !in ManualHeader(columns)
    ensures "tool_used" !in ManualHeader(columns)
    ensures "time_taken_sec" !in ManualHeader(columns)
  {
    var c2 := Relabelled(AddName(columns, "source"), Clean);
    RelabelledAvoids(c2, Rename, "user");
    RelabelledAvoids(c2, Rename, "tool_used");
    RelabelledAvoids(c2, Rename, "time_taken_sec");
  }

  /** A header that cleans to one of the three old names reappears under its new name. */
  lemma HeaderRenames(columns: seq<string>)
    ensures forall i :: 0 <= i < |columns| && Clean(columns[i]) == "user" ==> "name" in ManualHeader(columns)
    ensures forall i :: 0 <= i < |columns| && Clean(columns[i]) == "tool_used" ==> "tool_name" in ManualHeader(columns)
    ensures forall i :: 0 <= i < |columns| && Clean(columns[i]) == "time_taken_sec" ==> "time_to_create" in ManualHeader(columns)
  {
    var c1 := AddName(columns, "source");
    var header := ManualHeader(columns);
    forall i | 0 <= i < |columns|
      ensures header[i] == Rename(Clean(columns[i]))
    {
      assert c1[i] == columns[i];
    }
  }

  /** A value that is already a multiple of 0.01 is left as it is, so rounding twice
      is rounding once. */
  lemma Round2Idempotent(x: real)
    ensures Round2(Round2(x)) == Round2(x)
  {
    var y := x * 100.0;
    var f := y.Floor;
    var d := y - f as real;
    var n := if d < 0.5 then f else if d > 0.5 then f + 1 else if f % 2 == 0 then f else f + 1;
    assert Round2(x) == n as real / 100.0;
    assert (n as real / 100.0) * 100.0 == n as real;
  }

  /** Ties go to the even neighbour, as numpy's `round` does. */
  lemma Round2Ties()
    ensures Round2(0.125) == 0.12 && Round2(0.135) == 0.14 && Round2(-0.125) == -0.12
  {
    assert (12.5).Floor == 12;
    assert (13.5).Floor == 13;
    assert (-12.5).Floor == -13;
  }

  /** A label already in clean form is left as it is. */
  lemma CleanOfClean(name: string)
    requires name == [] || (!IsSpace(name[0]) && !IsSpace(name[|name| - 1]))
    requires forall i :: 0 <= i < |name| ==> !('A' <= name[i] <= 'Z')
    ensures Clean(name) == name
  {
    StripTrimmed(name);
    LowerOfLowered(name);
  }

  /** Cleaning a label twice is cleaning it once. */
  lemma CleanIdempotent(name: string)
    ensures Clean(Clean(name)) == Clean(name)
  {
    var s := Strip(name);
    var r := Lower(s);
    if r != [] {
      assert r[0] == LowerChar(s[0]) && r[|r| - 1] == LowerChar(s[|s| - 1]);
      LowerKeepsSpace(s[0]);
      LowerKeepsSpace(s[|s| - 1]);
    }
    CleanOfClean(r);
  }

  lemma LowerKeepsSpace(c: char)
    ensures IsSpace(LowerChar(c)) == IsSpace(c)
  {
    if 'A' <= c <= 'Z' {
      assert !IsSpace(c) && 'a' <= LowerChar(c) <= 'z';
    }
  }

  /** Scenario: the text "-4.567" in `time_taken_sec` becomes a duration of 4.57. */
  lemma DurationScenario(lib: Library)
    requires lib.toNumeric(CStr("-4.567")) == Some(-4.567)
    ensures Duration(lib, CStr("-4.567")) == CNum(4.57)
  {
    assert (456.7).Floor == 456;
  }
}

=== FILE: normalize.dfy ===
/** The normalisation loop run over both copies of the automated sheet: each
    row's `response` text is decoded and the issue fields it carries become
    columns of the frame, beside the coerced `timestamp`/`time_to_create` and
    the derived `project`. */
module Normalize {
  import opened Wrappers
  import opened Values
  import opened Seqs
  import opened Text
  import opened Payload
  import opened Frames

  /** The columns the loop assigns, in the order it assigns them. */
  const Derived: seq<string> := ["parsed", "issue_key", "summary", "status", "priority", "created",
    "timestamp", "time_to_create", "project", "issue_type", "reporter", "assignee", "labels",
    "resolution", "resolution_date"]

  /** The header after assigning each name of `names` in turn. */
  function AddNames(columns: seq<string>, names: seq<string>): (r: seq<string>)
  {
    if names == [] then columns
    else AddName(AddNames(columns, names[..|names| - 1]), names[|names| - 1])
  }

  /** Assigning columns keeps the old header as a prefix and adds exactly the new names. */
  lemma {:induction false} AddNamesShape(columns: seq<string>, names: seq<string>)
    ensures columns <= AddNames(columns, names)
    ensures Elems(AddNames(columns, names)) == Elems(columns) + Elems(names)
    ensures NoDuplicates(columns) ==> NoDuplicates(AddNames(columns, names))
  {
    if names != [] {
      var init := names[..|names| - 1];
      AddNamesShape(columns, init);
      assert names == init + [names[|names| - 1]];
      assert Elems(names) == Elems(init) + {names[|names| - 1]};
    }
  }

  lemma AddNamesSnoc(columns: seq<string>, names: seq<string>, name: string)
    ensures AddNames(columns, names + [name]) == AddName(AddNames(columns, names), name)
  {
    assert (names + [name])[..|names|] == names;
  }

  lemma {:induction false} AddNamesAppend(columns: seq<string>, first: seq<string>, second: seq<string>)
    ensures AddNames(AddNames(columns, first), second) == AddNames(columns, first + second)
  {
    if second == [] {
      assert first + second == first;
    } else {
      var init := second[..|second| - 1];
      AddNamesAppend(columns, first, init);
      assert (first + second)[..|first + second| - 1] == first + init;
      assert (first + second)[|first + second| - 1] == second[|second| - 1];
    }
  }

  /** The header once the loop body has run. */
  function NormalizedColumns(columns: seq<string>): (r: seq<string>)
    ensures columns <= r
    ensures Elems(r) == Elems(columns) + Elems(Derived)
    ensures "time_to_create" in r && "project" in r
  {
    assert "time_to_create" in Elems(Derived) && "project" in Elems(Derived);
    AddNamesShape(columns, Derived);
    AddNames(columns, Derived)
  }

  /** The per-row value of `df['project'] = df['issue_key'].str.split('-').str[0]`:
      the key's text before its first dash; anything but a string gives NaN. */
  function ProjectOf(key: Cell): (p: Cell)
    ensures p == CNull <==> !key.CStr?
    ensures p.CStr? ==> p.s <= key.s && '-' !in p.s
    ensures p.CStr? ==> p.s == key.s || key.s[|p.s|] == '-'
  {
    match key
    case CStr(s) => CStr(BeforeDash(s))
    case _ => CNull
  }

  /** A boolean cell (JSON `true`/`false` kept as a Python object). */
  predicate IsBool(c: Cell)
  {
    c.CJson? && c.j.JBool?
  }

  /** Whether `.str` (line 79) raises AttributeError on a column: pandas accepts a
      column whose present values include a string, a list or a mapping, or one with
      no present value at all, and refuses one whose present values are all numbers
      or all booleans. */
  predicate StrRefuses(keys: seq<Cell>)
  {
    && (exists i :: 0 <= i < |keys| && keys[i] != CNull)
    && ((forall i :: 0 <= i < |keys| ==> keys[i] == CNull || keys[i].CNum?)
        || (forall i :: 0 <= i < |keys| ==> keys[i] == CNull || IsBool(keys[i])))
  }

  /** One string key is enough for `.str` to accept the column; a column it
      refuses has no string in it, so no row would have had a project. */
  lemma StrRefusesNoString(keys: seq<Cell>)
    ensures StrRefuses(keys) ==> forall i :: 0 <= i < |keys| ==> ProjectOf(keys[i]) == CNull
    ensures (exists i :: 0 <= i < |keys| && keys[i].CStr?) ==> !StrRefuses(keys)
  {
    if exists i :: 0 <= i < |keys| && keys[i].CStr? {
      var i :| 0 <= i < |keys| && keys[i].CStr?;
      assert !(keys[i] == CNull || keys[i].CNum?) && !(keys[i] == CNull || IsBool(keys[i]));
    }
  }

  /** Numeric keys (`"key": 123` in every payload) make `.str` raise, and so does
      a mix of numbers and missing values; a column of missing values alone does not. */
  lemma NumericKeysRefused(n: real)
    ensures StrRefuses([CNum(n), CNull])
    ensures !StrRefuses([CNull, CNull])
  {
    assert [CNum(n), CNull][0] != CNull;
  }

  /** A string key has a project even when it has no dash: the whole key. */
  lemma ProjectOfDashFreeKey(key: string)
    requires '-' !in key
    ensures ProjectOf(CStr(key)) == CStr(key)
  {
    BeforeDashNoDash(key);
  }

  /** True when every two-level `safe_get` the loop makes on `p` returns. */
  predicate Readable(p: Json)
  {
    && SafeGet(p, "status", Some("name")).Ok?
    && SafeGet(p, "priority", Some("name")).Ok?
    && SafeGet(p, "issuetype", Some("name")).Ok?
    && SafeGet(p, "reporter", Some("displayName")).Ok?
    && SafeGet(p, "assignee", Some("displayName")).Ok?
    && SafeGet(p, "resolution", Some("name")).Ok?
  }

  /** The cell a successful `safe_get` puts in a column. */
  function Read(p: Json, field: string, subfield: Option<string>): Cell
    requires SafeGet(p, field, subfield).Ok?
  {
    FromJson(SafeGet(p, field, subfield).value)
  }

  /** Each cell the loop reads from a payload is the value at that field's path. */
  lemma ReadIsAt(p: Json, field: string, subfield: Option<string>)
    requires SafeGet(p, field, subfield).Ok?
    ensures Read(p, field, subfield) == FromJson(At(p, PathOf(field, subfield)))
  {
    SafeGetReadsPath(p, field, subfield);
  }

  /** Lines 68-70 for one row: the decoded payload, its key and its summary. */
  function WithIdentity(p: Json, row: Row): Row
  {
    row["parsed" := CJson(p)]
       ["issue_key" := Read(p, "key", None)]
       ["summary" := Read(p, "summary", None)]
  }

  /** Lines 71-73 for one row: status and priority names and the creation time. */
  function WithStatus(lib: Library, p: Json, row: Row): Row
    requires SafeGet(p, "status", Some("name")).Ok? && SafeGet(p, "priority", Some("name")).Ok?
  {
    row["status" := Read(p, "status", Some("name"))]
       ["priority" := Read(p, "priority", Some("name"))]
       ["created" := ToDatetime(lib, Read(p, "created", None))]
  }

  /** Lines 74-79 for one row: the coerced timestamp and duration, and the project
      taken from the `issue_key` the row now carries. */
  function WithCoercions(lib: Library, hadDuration: bool, row: Row): Row
    requires "timestamp" in row && "issue_key" in row
    requires hadDuration ==> "time_to_create" in row
  {
    row["timestamp" := ToDatetime(lib, row["timestamp"])]
       ["time_to_create" := if hadDuration then ToNumeric(lib, row["time_to_create"]) else CNull]
       ["project" := ProjectOf(row["issue_key"])]
  }

  /** Lines 80-82 for one row: issue type, reporter and assignee names. */
  function WithPeople(p: Json, row: Row): Row
    requires SafeGet(p, "issuetype", Some("name")).Ok?
    requires SafeGet(p, "reporter", Some("displayName")).Ok?
    requires SafeGet(p, "assignee", Some("displayName")).Ok?
  {
    row["issue_type" := Read(p, "issuetype", Some("name"))]
       ["reporter" := Read(p, "reporter", Some("displayName"))]
       ["assignee" := Read(p, "assignee", Some("displayName"))]
  }

  /** Lines 83-85 for one row: labels, resolution name and resolution time. */
  function WithResolution(lib: Library, p: Json, row: Row): Row
    requires SafeGet(p, "resolution", Some("name")).Ok?
  {
    row["labels" := Read(p, "labels", None)]
       ["resolution" := Read(p, "resolution", Some("name"))]
       ["resolution_date" := ToDatetime(lib, Read(p, "resolutiondate", None))]
  }

  /** Lines 68-79 for one row. */
  function FrontRow(lib: Library, hadDuration: bool, p: Json, row: Row): Row
    requires "timestamp" in row && (hadDuration ==> "time_to_create" in row)
    requires SafeGet(p, "status", Some("name")).Ok? && SafeGet(p, "priority", Some("name")).Ok?
  {
    WithCoercions(lib, hadDuration, WithStatus(lib, p, WithIdentity(p, row)))
  }

  /** Lines 80-85 for one row. */
  function BackRow(lib: Library, p: Json, row: Row): Row
    requires Readable(p)
  {
    WithResolution(lib, p, WithPeople(p, row))
  }

  lemma FrontRowKeeps(lib: Library, hadDuration: bool, p: Json, row: Row)
    requires "timestamp" in row && (hadDuration ==> "time_to_create" in row) && "response" in row
    requires SafeGet(p, "status", Some("name")).Ok? && SafeGet(p, "priority", Some("name")).Ok?
    ensures var r := FrontRow(lib, hadDuration, p, row);
      && "project" in r && "issue_key" in r && r["project"] == ProjectOf(r["issue_key"])
      && "parsed" in r && r["parsed"] == CJson(p)
      && "response" in r && r["response"] == row["response"]
  {
    var r1 := WithIdentity(p, row);
    var r2 := WithStatus(lib, p, r1);
    assert r2["issue_key"] == r1["issue_key"] && r2["parsed"] == CJson(p) && r2["response"] == row["response"];
  }

  lemma BackRowKeeps(lib: Library, p: Json, row: Row)
    requires Readable(p)
    ensures var r := BackRow(lib, p, row);
      && ("project" in row ==> "project" in r && r["project"] == row["project"])
      && ("issue_key" in row ==> "issue_key" in r && r["issue_key"] == row["issue_key"])
      && ("parsed" in row ==> "parsed" in r && r["parsed"] == row["parsed"])
      && ("response" in row ==> "response" in r && r["response"] == row["response"])
  {
  }

  /** What one row looks like after the loop body, given whether the frame had a
      `time_to_create` column beforehand. */
  function NormalizeRow(lib: Library, hadDuration: bool, row: Row): (r: Row)
    requires "response" in row && "timestamp" in row
    requires hadDuration ==> "time_to_create" in row
    requires Readable(ParseResponse(lib, row["response"]))
    ensures "project" in r && "issue_key" in r && r["project"] == ProjectOf(r["issue_key"])
    ensures "parsed" in r && r["parsed"] == CJson(ParseResponse(lib, row["response"]))
    ensures "response" in r && r["response"] == row["response"]
  {
    var p := ParseResponse(lib, row["response"]);
    var front := FrontRow(lib, hadDuration, p, row);
    FrontRowKeeps(lib, hadDuration, p, row);
    BackRowKeeps(lib, p, front);
    BackRow(lib, p, front)
  }

  /** `df['response'].apply(parse_response)`. */
  function Parsed(lib: Library, rows: seq<Row>): (ps: seq<Json>)
    requires forall i :: 0 <= i < |rows| ==> "response" in rows[i]
    ensures |ps| == |rows|
    ensures forall i :: 0 <= i < |rows| ==> ps[i] == ParseResponse(lib, rows[i]["response"])
  {
    seq(|rows|, i requires 0 <= i < |rows| => ParseResponse(lib, rows[i]["response"]))
  }

  /** True when some row's `safe_get(x, field, subfield)` raises. */
  predicate SomeRowFails(ps: seq<Json>, field: string, subfield: string)
  {
    exists i :: 0 <= i < |ps| && SafeGet(ps[i], field, Some(subfield)).Err?
  }

  /** The error the loop body stops at, in the order the body meets them: the
      `response` column (line 68), the status and priority reads, the `timestamp`
      column (line 74), the `.str` accessor on `issue_key` (line 79), then the
      remaining two-level reads. */
  function FirstError(lib: Library, columns: seq<string>, rows: seq<Row>): (e: Option<FrameError>)
    requires WellFormed(columns, rows)
    ensures e.Some? && e.value.KeyError? ==> e.value.column !in columns
    ensures e.Some? && e.value.AttributeError? ==> (
      && "response" in columns
      && exists i :: 0 <= i < |rows| && var p := ParseResponse(lib, rows[i]["response"]);
           p.JObj? && e.value.field in p.fields && !p.fields[e.value.field].JObj?)
    ensures e.Some? && e.value.NotStrings? ==> (
      && e.value.column == "issue_key" && "response" in columns
      && forall i :: 0 <= i < |rows| ==> ProjectOf(Read(ParseResponse(lib, rows[i]["response"]), "key", None)) == CNull)
  {
    if "response" !in columns then Some(KeyError("response"))
    else
      var ps := Parsed(lib, rows);
      StrRefusesNoString(FieldColumn(ps, "key"));
      if FrontError(ps, columns).Some? then FrontError(ps, columns) else BackError(ps)
  }

  /** The errors of lines 68-79, in the order the body meets them. */
  function FrontError(ps: seq<Json>, columns: seq<string>): Option<FrameError>
  {
    if SomeRowFails(ps, "status", "name") then Some(AttributeError("status"))
    else if SomeRowFails(ps, "priority", "name") then Some(AttributeError("priority"))
    else if "timestamp" !in columns then Some(KeyError("timestamp"))
    else if StrRefuses(FieldColumn(ps, "key")) then Some(NotStrings("issue_key"))
    else None
  }

  /** The errors of lines 80-85, in the order the body meets them. */
  function BackError(ps: seq<Json>): Option<FrameError>
  {
    if SomeRowFails(ps, "issuetype", "name") then Some(AttributeError("issuetype"))
    else if SomeRowFails(ps, "reporter", "displayName") then Some(AttributeError("reporter"))
    else if SomeRowFails(ps, "assignee", "displayName") then Some(AttributeError("assignee"))
    else if SomeRowFails(ps, "resolution", "name") then Some(AttributeError("resolution"))
    else None
  }

  /** The loop body runs to the end exactly when both columns it reads exist,
      every row's payload survives every two-level read, and `.str` accepts the keys. */
  lemma NoErrorIffReadable(lib: Library, columns: seq<string>, rows: seq<Row>)
    requires WellFormed(columns, rows)
    ensures FirstError(lib, columns, rows) == None <==>
      && "response" in columns && "timestamp" in columns
      && (forall i :: 0 <= i < |rows| ==> Readable(ParseResponse(lib, rows[i]["response"])))
      && !StrRefuses(FieldColumn(Parsed(lib, rows), "key"))
  {
  }

  /** `df['parsed'].apply(lambda x: safe_get(x, field, subfield))`: one cell per row,
      or the AttributeError of the first row that raises. */
  function ReadColumn(ps: seq<Json>, field: string, subfield: Option<string>): (r: Result<seq<Cell>, FrameError>)
    ensures r.Ok? <==> forall i :: 0 <= i < |ps| ==> SafeGet(ps[i], field, subfield).Ok?
    ensures r.Ok? ==> |r.value| == |ps|
    ensures r.Ok? ==> forall i :: 0 <= i < |ps| ==> r.value[i] == Read(ps[i], field, subfield)
    ensures r.Err? ==> r.error == AttributeError(field)
  {
    if forall i :: 0 <= i < |ps| ==> SafeGet(ps[i], field, subfield).Ok? then
      Ok(seq(|ps|, i requires 0 <= i < |ps| => Read(ps[i], field, subfield)))
    else Err(AttributeError(field))
  }

  /** `df['parsed'].apply(lambda x: safe_get(x, field))`: a one-level read never raises. */
  function FieldColumn(ps: seq<Json>, field: string): (r: seq<Cell>)
    ensures |r| == |ps|
    ensures forall i :: 0 <= i < |ps| ==> r[i] == Read(ps[i], field, None)
  {
    seq(|ps|, i requires 0 <= i < |ps| => Read(ps[i], field, None))
  }

  const IdentityNames: seq<string> := ["parsed", "issue_key", "summary"]
  const StatusNames: seq<string> := ["status", "priority", "created"]
  const CoercedNames: seq<string> := ["timestamp", "time_to_create", "project"]
  const PeopleNames: seq<string> := ["issue_type", "reporter", "assignee"]
  const ResolutionNames: seq<string> := ["labels", "resolution", "resolution_date"]
  const FrontNames: seq<string> := IdentityNames + StatusNames + CoercedNames
  const BackNames: seq<string> := PeopleNames + ResolutionNames

  /** Lines 68-70 on a frame whose `response` column has been decoded into `ps`. */
  method AssignIdentity(frame: DataFrame, ps: seq<Json>)
    requires frame.Valid() && |ps| == |frame.rows|
    modifies frame
    ensures frame.Valid() && |frame.rows| == |old(frame.rows)|
    ensures frame.columns == AddNames(old(frame.columns), IdentityNames)
    ensures forall i :: 0 <= i < |frame.rows| ==> frame.rows[i] == WithIdentity(ps[i], old(frame.rows[i]))
  {
    ghost var cols0, rows0 := frame.columns, frame.rows;
    ghost var added: seq<string> := [];
    var parsed := seq(|ps|, i requires 0 <= i < |ps| => CJson(ps[i]));
    frame.Assign("parsed", parsed);
    AddNamesSnoc(cols0, added, "parsed"); added := added + ["parsed"];
    var keys := FieldColumn(ps, "key");
    frame.Assign("issue_key", keys);
    AddNamesSnoc(cols0, added, "issue_key"); added := added + ["issue_key"];
    var summaries := FieldColumn(ps, "summary");
    frame.Assign("summary", summaries);
    AddNamesSnoc(cols0, added, "summary"); added := added + ["summary"];
    assert added == IdentityNames;
    assert frame.rows == AssignRows(AssignRows(AssignRows(rows0,
      "parsed", parsed), "issue_key", keys), "summary", summaries);
  }

  /** Lines 71-73 on a frame whose `response` column has been decoded into `ps`. */
  method AssignStatus(frame: DataFrame, lib: Library, ps: seq<Json>) returns (err: Option<FrameError>)
    requires frame.Valid() && |ps| == |frame.rows|
    modifies frame
    ensures frame.Valid() && |frame.rows| == |old(frame.rows)|
    ensures err == if SomeRowFails(ps, "status", "name") then Some(AttributeError("status"))
                   else if SomeRowFails(ps, "priority", "name") then Some(AttributeError("priority"))
                   else None
    ensures err == None ==> frame.columns == AddNames(old(frame.columns), StatusNames)
    ensures err == None ==> forall i :: 0 <= i < |frame.rows| ==>
      && SafeGet(ps[i], "status", Some("name")).Ok? && SafeGet(ps[i], "priority", Some("name")).Ok?
      && frame.rows[i] == WithStatus(lib, ps[i], old(frame.rows[i]))
  {
    ghost var cols0, rows0 := frame.columns, frame.rows;
    ghost var added: seq<string> := [];
    var statuses := ReadColumn(ps, "status", Some("name"));
    if statuses.Err? { return Some(statuses.error); }
    frame.Assign("status", statuses.value);
    AddNamesSnoc(cols0, added, "status"); added := added + ["status"];
    var priorities := ReadColumn(ps, "priority", Some("name"));
    if priorities.Err? { return Some(priorities.error); }
    frame.Assign("priority", priorities.value);
    AddNamesSnoc(cols0, added, "priority"); added := added + ["priority"];
    var created := DatetimeColumn(lib, FieldColumn(ps, "created"));
    frame.Assign("created", created);
    AddNamesSnoc(cols0, added, "created"); added := added + ["created"];
    assert added == StatusNames;
    assert frame.rows == AssignRows(AssignRows(AssignRows(rows0,
      "status", statuses.value), "priority", priorities.value), "created", created);
    return None;
  }

  lemma CoercedColumns(columns: seq<string>)
    ensures AddNames(columns, CoercedNames) ==
      AddName(AddName(AddName(columns, "timestamp"), "time_to_create"), "project")
  {
    AddNamesSnoc(columns, [], "timestamp");
    AddNamesSnoc(columns, ["timestamp"], "time_to_create");
    AddNamesSnoc(columns, ["timestamp", "time_to_create"], "project");
    assert ["timestamp", "time_to_create"] + ["project"] == CoercedNames;
  }

  /** Line 79: `df['project'] = df['issue_key'].str.split('-').str[0]`, which
      raises when `.str` refuses the key column. */
  method AssignProject(frame: DataFrame) returns (err: Option<FrameError>)
    requires frame.Valid() && "issue_key" in frame.columns
    modifies frame
    ensures frame.Valid() && |frame.rows| == |old(frame.rows)|
    ensures err == if StrRefuses(old(frame.Column("issue_key"))) then Some(NotStrings("issue_key")) else None
    ensures err == None ==> frame.columns == AddName(old(frame.columns), "project")
    ensures err == None ==> forall i :: 0 <= i < |frame.rows| ==>
      frame.rows[i] == old(frame.rows[i])["project" := ProjectOf(old(frame.rows[i])["issue_key"])]
  {
    var issueKeys := frame.Column("issue_key");
    if StrRefuses(issueKeys) {
      return Some(NotStrings("issue_key"));
    }
    var projects := seq(|issueKeys|, i requires 0 <= i < |issueKeys| => ProjectOf(issueKeys[i]));
    frame.Assign("project", projects);
    return None;
  }

  /** Lines 74-79: coerce `timestamp` and `time_to_create`, derive `project`. */
  method AssignCoercions(frame: DataFrame, lib: Library) returns (err: Option<FrameError>)
    requires frame.Valid() && "issue_key" in frame.columns
    modifies frame
    ensures frame.Valid() && |frame.rows| == |old(frame.rows)|
    ensures err == if "timestamp" !in old(frame.columns) then Some(KeyError("timestamp"))
                   else if StrRefuses(old(frame.Column("issue_key"))) then Some(NotStrings("issue_key"))
                   else None
    ensures err == None ==> frame.columns == AddNames(old(frame.columns), CoercedNames)
    ensures err == None ==> forall i :: 0 <= i < |frame.rows| ==>
      frame.rows[i] == WithCoercions(lib, "time_to_create" in old(frame.columns), old(frame.rows[i]))
  {
    if "timestamp" !in frame.columns {
      return Some(KeyError("timestamp"));
    }
    ghost var cols0, rows0 := frame.columns, frame.rows;
    var hadDuration := "time_to_create" in frame.columns;
    var stamps := DatetimeColumn(lib, frame.Column("timestamp"));
    frame.Assign("timestamp", stamps);
    ghost var rows1 := frame.rows;
    var durations;
    if hadDuration {
      durations := NumericColumn(lib, frame.Column("time_to_create"));
    } else {
      durations := seq(|frame.rows|, i => CNull);
    }
    frame.Assign("time_to_create", durations);
    ghost var rows2 := frame.rows;
    assert frame.Column("issue_key") == old(frame.Column("issue_key")) by {
      forall i | 0 <= i < |rows2| ensures rows2[i]["issue_key"] == rows0[i]["issue_key"] {
        assert rows1[i]["issue_key"] == rows0[i]["issue_key"];
      }
    }
    err := AssignProject(frame);
    if err != None { return; }
    CoercedColumns(cols0);
    forall i | 0 <= i < |frame.rows|
      ensures frame.rows[i] == WithCoercions(lib, hadDuration, rows0[i])
    {
      assert rows1[i] == rows0[i]["timestamp" := stamps[i]];
      assert rows2[i] == rows1[i]["time_to_create" := durations[i]];
    }
    return None;
  }

  /** Lines 80-82 on a frame whose `response` column has been decoded into `ps`. */
  method AssignPeople(frame: DataFrame, ps: seq<Json>) returns (err: Option<FrameError>)
    requires frame.Valid() && |ps| == |frame.rows|
    modifies frame
    ensures frame.Valid() && |frame.rows| == |old(frame.rows)|
    ensures err == if SomeRowFails(ps, "issuetype", "name") then Some(AttributeError("issuetype"))
                   else if SomeRowFails(ps, "reporter", "displayName") then Some(AttributeError("reporter"))
                   else if SomeRowFails(ps, "assignee", "displayName") then Some(AttributeError("assignee"))
                   else None
    ensures err == None ==> frame.columns == AddNames(old(frame.columns), PeopleNames)
    ensures err == None ==> forall i :: 0 <= i < |frame.rows| ==>
      && SafeGet(ps[i], "issuetype", Some("name")).Ok?
      && SafeGet(ps[i], "reporter", Some("displayName")).Ok?
      && SafeGet(ps[i], "assignee", Some("displayName")).Ok?
      && frame.rows[i] == WithPeople(ps[i], old(frame.rows[i]))
  {
    ghost var cols0, rows0 := frame.columns, frame.rows;
    ghost var added: seq<string> := [];
    var types := ReadColumn(ps, "issuetype", Some("name"));
    if types.Err? { return Some(types.error); }
    frame.Assign("issue_type", types.value);
    AddNamesSnoc(cols0, added, "issue_type"); added := added + ["issue_type"];
    var reporters := ReadColumn(ps, "reporter", Some("displayName"));
    if reporters.Err? { return Some(reporters.error); }
    frame.Assign("reporter", reporters.value);
    AddNamesSnoc(cols0, added, "reporter"); added := added + ["reporter"];
    var assignees := ReadColumn(ps, "assignee", Some("displayName"));
    if assignees.Err? { return Some(assignees.error); }
    frame.Assign("assignee", assignees.value);
    AddNamesSnoc(cols0, added, "assignee"); added := added + ["assignee"];
    assert added == PeopleNames;
    assert frame.rows == AssignRows(AssignRows(AssignRows(rows0,
      "issue_type", types.value), "reporter", reporters.value), "assignee", assignees.value);
    return None;
  }

  /** Lines 83-85 on a frame whose `response` column has been decoded into `ps`. */
  method AssignResolution(frame: DataFrame, lib: Library, ps: seq<Json>) returns (err: Option<FrameError>)
    requires frame.Valid() && |ps| == |frame.rows|
    modifies frame
    ensures frame.Valid() && |frame.rows| == |old(frame.rows)|
    ensures err == if SomeRowFails(ps, "resolution", "name") then Some(AttributeError("resolution")) else None
    ensures err == None ==> frame.columns == AddNames(old(frame.columns), ResolutionNames)
    ensures err == None ==> forall i :: 0 <= i < |frame.rows| ==>
      && SafeGet(ps[i], "resolution", Some("name")).Ok?
      && frame.rows[i] == WithResolution(lib, ps[i], old(frame.rows[i]))
  {
    ghost var cols0, rows0 := frame.columns, frame.rows;
    ghost var added: seq<string> := [];
    var labels := FieldColumn(ps, "labels");
    frame.Assign("labels", labels);
    AddNamesSnoc(cols0, added, "labels"); added := added + ["labels"];
    var resolutions := ReadColumn(ps, "resolution", Some("name"));
    if resolutions.Err? { return Some(resolutions.error); }
    frame.Assign("resolution", resolutions.value);
    AddNamesSnoc(cols0, added, "resolution"); added := added + ["resolution"];
    var resolved := DatetimeColumn(lib, FieldColumn(ps, "resolutiondate"));
    frame.Assign("resolution_date", resolved);
    AddNamesSnoc(cols0, added, "resolution_date"); added := added + ["resolution_date"];
    assert added == ResolutionNames;
    assert frame.rows == AssignRows(AssignRows(AssignRows(rows0,
      "labels", labels), "resolution", resolutions.value), "resolution_date", resolved);
    return None;
  }

  /** After the first six assignments, `issue_key` is a column and `timestamp` and
      `time_to_create` are columns exactly when they were before. */
  lemma LeadColumns(columns: seq<string>)
    ensures var c := AddNames(AddNames(columns, IdentityNames), StatusNames);
      && "issue_key" in c
      && ("timestamp" in c <==> "timestamp" in columns)
      && ("time_to_create" in c <==> "time_to_create" in columns)
  {
    var c := AddNames(AddNames(columns, IdentityNames), StatusNames);
    AddNamesShape(AddNames(columns, IdentityNames), StatusNames);
    AddNamesShape(columns, IdentityNames);
    assert "issue_key" in Elems(IdentityNames);
    assert "time_to_create" !in Elems(IdentityNames) + Elems(StatusNames);
    assert "timestamp" !in Elems(IdentityNames) + Elems(StatusNames);
    assert "issue_key" in Elems(c);
    assert ("timestamp" in c) == ("timestamp" in Elems(c)) && ("timestamp" in columns) == ("timestamp" in Elems(columns));
    assert ("time_to_create" in c) == ("time_to_create" in Elems(c));
    assert ("time_to_create" in columns) == ("time_to_create" in Elems(columns));
  }

  /** Lines 68-79 on a frame whose `response` column has been decoded into `ps`. */
  method AssignFront(frame: DataFrame, lib: Library, ps: seq<Json>) returns (err: Option<FrameError>)
    requires frame.Valid() && |ps| == |frame.rows|
    modifies frame
    ensures frame.Valid() && |frame.rows| == |old(frame.rows)|
    ensures err == FrontError(ps, old(frame.columns))
    ensures err == None ==> frame.columns == AddNames(old(frame.columns), FrontNames)
    ensures err == None ==> forall i :: 0 <= i < |frame.rows| ==>
      && SafeGet(ps[i], "status", Some("name")).Ok? && SafeGet(ps[i], "priority", Some("name")).Ok?
      && "timestamp" in old(frame.rows[i])
      && frame.rows[i] == FrontRow(lib, "time_to_create" in old(frame.columns), ps[i], old(frame.rows[i]))
  {
    ghost var cols0, rows0 := frame.columns, frame.rows;
    AssignIdentity(frame, ps);
    ghost var rows1 := frame.rows;
    err := AssignStatus(frame, lib, ps);
    if err != None { return; }
    ghost var rows2, cols2 := frame.rows, frame.columns;
    LeadColumns(cols0);
    assert frame.Column("issue_key") == FieldColumn(ps, "key") by {
      forall i | 0 <= i < |rows2| ensures rows2[i]["issue_key"] == Read(ps[i], "key", None) {
        assert rows1[i] == WithIdentity(ps[i], rows0[i]);
        assert rows2[i] == WithStatus(lib, ps[i], rows1[i]);
      }
    }
    err := AssignCoercions(frame, lib);
    if err != None { return; }
    AddNamesAppend(cols0, IdentityNames, StatusNames);
    AddNamesAppend(cols0, IdentityNames + StatusNames, CoercedNames);
    assert IdentityNames + StatusNames + CoercedNames == FrontNames;
    forall i | 0 <= i < |frame.rows|
      ensures frame.rows[i] == FrontRow(lib, "time_to_create" in cols0, ps[i], rows0[i])
    {
      assert rows1[i] == WithIdentity(ps[i], rows0[i]);
      assert rows2[i] == WithStatus(lib, ps[i], rows1[i]);
    }
  }

  /** Lines 80-85 on a frame whose `response` column has been decoded into `ps`. */
  method AssignBack(frame: DataFrame, lib: Library, ps: seq<Json>) returns (err: Option<FrameError>)
    requires frame.Valid() && |ps| == |frame.rows|
    modifies frame
    ensures frame.Valid() && |frame.rows| == |old(frame.rows)|
    ensures err == BackError(ps)
    ensures err == None ==> frame.columns == AddNames(old(frame.columns), BackNames)
    ensures err == None ==> forall i :: 0 <= i < |frame.rows| ==>
      && SafeGet(ps[i], "issuetype", Some("name")).Ok?
      && SafeGet(ps[i], "reporter", Some("displayName")).Ok?
      && SafeGet(ps[i], "assignee", Some("displayName")).Ok?
      && SafeGet(ps[i], "resolution", Some("name")).Ok?
      && frame.rows[i] == WithResolution(lib, ps[i], WithPeople(ps[i], old(frame.rows[i])))
  {
    ghost var cols0, rows0 := frame.columns, frame.rows;
    err := AssignPeople(frame, ps);
    if err != None { return; }
    ghost var rows1 := frame.rows;
    err := AssignResolution(frame, lib, ps);
    if err != None { return; }
    AddNamesAppend(cols0, PeopleNames, ResolutionNames);
    assert PeopleNames + ResolutionNames == BackNames;
    forall i | 0 <= i < |frame.rows|
      ensures frame.rows[i] == WithResolution(lib, ps[i], WithPeople(ps[i], rows0[i]))
    {
      assert rows1[i] == WithPeople(ps[i], rows0[i]);
    }
  }

  /** The stages assign the derived names in the order the loop body does. */
  lemma DerivedInOrder()
    ensures FrontNames + BackNames == Derived
  {
  }

  /** The body of the loop for one frame `df_target`, assigning column after column in place. */
  method NormalizeFrame(frame: DataFrame, lib: Library) returns (err: Option<FrameError>)
    requires frame.Valid()
    modifies frame
    ensures frame.Valid()
    ensures err == FirstError(lib, old(frame.columns), old(frame.rows))
    ensures |frame.rows| == |old(frame.rows)|
    ensures err == None ==> frame.columns == NormalizedColumns(old(frame.columns))
    ensures err == None ==> forall i :: 0 <= i < |frame.rows| ==>
      && "response" in old(frame.rows[i]) && "timestamp" in old(frame.rows[i])
      && Readable(ParseResponse(lib, old(frame.rows[i])["response"]))
      && frame.rows[i] == NormalizeRow(lib, "time_to_create" in old(frame.columns), old(frame.rows[i]))
  {
    if "response" !in frame.columns {
      return Some(KeyError("response"));
    }
    ghost var cols0, rows0 := frame.columns, frame.rows;
    var ps := Parsed(lib, frame.rows);
    assert ps == Parsed(lib, rows0);
    err := AssignFront(frame, lib, ps);
    assert FirstError(lib, cols0, rows0) == if err.Some? then err else BackError(ps);
    if err != None { return; }
    ghost var rows1 := frame.rows;
    err := AssignBack(frame, lib, ps);
    if err != None { return; }
    AddNamesAppend(cols0, FrontNames, BackNames);
    DerivedInOrder();
    forall i | 0 <= i < |frame.rows|
      ensures Readable(ps[i])
      ensures frame.rows[i] == NormalizeRow(lib, "time_to_create" in cols0, rows0[i])
    {
      assert rows1[i] == FrontRow(lib, "time_to_create" in cols0, ps[i], rows0[i]);
    }
  }
}

=== FILE: payload.dfy ===
/** `parse_response` and `safe_get`: decoding an automated row's `response`
    text and reading one- or two-level fields out of the decoded value. */
module Payload {
  import opened Wrappers
  import opened Values

  /** `parse_response(row)`: `json.loads(row)`, with every exception turned into `{}`.
      A cell that is not a string (a blank sheet cell is a float NaN) makes
      `json.loads` raise TypeError, so it too yields `{}`. The function is total:
      no input makes it fail. */
  function ParseResponse(lib: Library, cell: Cell): (p: Json)
    ensures cell.CStr? && lib.loads(cell.s).Some? ==> p == lib.loads(cell.s).value
    ensures !cell.CStr? || lib.loads(cell.s).None? ==> p == EmptyObject
  {
    match cell
    case CStr(text) =>
      (match lib.loads(text)
       case Some(j) => j
       case None => EmptyObject)
    case _ => EmptyObject
  }

  /** A decoded payload may still be something other than a mapping: a text
      that decodes to a list or a number is passed on as that list or number. */
  lemma ParseKeepsNonMapping(lib: Library, text: string, j: Json)
    requires lib.loads(text) == Some(j) && !j.JObj?
    ensures ParseResponse(lib, CStr(text)) == j
    ensures !ParseResponse(lib, CStr(text)).JObj?
  {
  }

  /** `if subfield:` — a Python truth test, so both `None` and `""` count as no subfield. */
  predicate Truthy(subfield: Option<string>)
  {
    subfield.Some? && subfield.value != ""
  }

  /** The exception `safe_get` can raise: AttributeError, `.get` called on a
      value under `field` that is not a dict (JSON null, a list, a string, ...). */
  datatype GetError = NotAMapping(field: string)

  /** `m.get(key)`. */
  function Get(m: map<string, Json>, key: string): Option<Json>
  {
    if key in m then Some(m[key]) else None
  }

  /** `safe_get(data, field, subfield)`. */
  function SafeGet(data: Json, field: string, subfield: Option<string>): (r: Result<Option<Json>, GetError>)
    ensures !data.JObj? ==> r == Ok(None)
    ensures data.JObj? && !Truthy(subfield) ==> r == Ok(Get(data.fields, field))
    ensures r.Err? <==>
      data.JObj? && Truthy(subfield) && field in data.fields && !data.fields[field].JObj?
    ensures r.Err? ==> r.error == NotAMapping(field)
  {
    if !data.JObj? then Ok(None)
    else if Truthy(subfield) then
      // data.get(field, {}).get(subfield)
      var inner := if field in data.fields then data.fields[field] else EmptyObject;
      if inner.JObj? then Ok(Get(inner.fields, subfield.value))
      else Err(NotAMapping(field))
    else Ok(Get(data.fields, field))
  }

  /** The path a `safe_get` call reads: `[field]`, or `[field, subfield]` when the subfield is truthy. */
  function PathOf(field: string, subfield: Option<string>): (path: seq<string>)
    ensures 1 <= |path| <= 2 && path[0] == field
  {
    if Truthy(subfield) then [field, subfield.value] else [field]
  }

  /** A total reference reading of a path: descend through mappings and give
      None as soon as a key is absent or a value on the way is not a mapping. */
  function At(data: Json, path: seq<string>): Option<Json>
  {
    if path == [] then Some(data)
    else match data
      case JObj(m) => if path[0] in m then At(m[path[0]], path[1..]) else None
      case _ => None
  }

  /** Where `safe_get` returns, it returns exactly the value at its path;
      it fails exactly where the total reading would have to look inside a
      present value that is not a mapping. */
  lemma SafeGetReadsPath(data: Json, field: string, subfield: Option<string>)
    ensures SafeGet(data, field, subfield).Ok? ==>
      SafeGet(data, field, subfield).value == At(data, PathOf(field, subfield))
    ensures SafeGet(data, field, subfield).Err? ==>
      At(data, [field]).Some? && !At(data, [field]).value.JObj? && Truthy(subfield)
  {
    if data.JObj? && Truthy(subfield) && field in data.fields && data.fields[field].JObj? {
      var m := data.fields[field].fields;
      var path := [field, subfield.value];
      assert path[1..][1..] == [];
      assert At(data, path) == At(data.fields[field], [subfield.value]);
    }
  }

  /** With a subfield, an absent field gives None, a mapping gives its entry. */
  lemma SafeGetTwoLevels(data: map<string, Json>, field: string, subfield: string)
    requires subfield != ""
    ensures field !in data ==> SafeGet(JObj(data), field, Some(subfield)) == Ok(None)
    ensures field in data && data[field].JObj? ==>
      SafeGet(JObj(data), field, Some(subfield)) == Ok(Get(data[field].fields, subfield))
  {
  }

  /** A Jira issue that is not yet resolved carries `"resolution": null`;
      reading `resolution.name` from it raises instead of giving None. */
  lemma NullIntermediateFails(fields: map<string, Json>)
    requires "resolution" in fields && fields["resolution"] == JNull
    ensures SafeGet(JObj(fields), "resolution", Some("name")) == Err(NotAMapping("resolution"))
  {
  }
}

=== FILE: pipeline.dfy ===
/** The script's top level for the automated sheet: the two copies of the sheet
    are tagged with their source, the second has its headers stripped, and the
    normalisation loop then runs over both. */
module Pipeline {
  import opened Wrappers
  import opened Values
  import opened Text
  import opened Frames
  import opened Payload
  import opened Normalize

  /** A column holding the same cell in every row (`df[name] = value`). */
  function Constant(n: nat, c: Cell): (values: seq<Cell>)
    ensures |values| == n && forall i :: 0 <= i < n ==> values[i] == c
  {
    if n == 0 then [] else Constant(n - 1, c) + [c]
  }

  /** Lines 19-21: both copies get `source = 'automated'`; then the headers of the
      second copy are stripped of surrounding whitespace. */
  method Setup(df: DataFrame, autoDf: DataFrame)
    requires df.Valid() && autoDf.Valid() && df != autoDf
    modifies df, autoDf
    ensures df.Valid() && autoDf.Valid()
    ensures df.columns == AddName(old(df.columns), "source")
    ensures df.rows == AssignRows(old(df.rows), "source", Constant(|old(df.rows)|, CStr("automated")))
    ensures forall i :: 0 <= i < |df.rows| ==> df.rows[i]["source"] == CStr("automated")
    ensures autoDf.columns == Relabelled(AddName(old(autoDf.columns), "source"), Strip)
    ensures |autoDf.rows| == |old(autoDf.rows)|
    ensures forall i :: 0 <= i < |autoDf.rows| ==>
      autoDf.rows[i] == RelabelRow(AddName(old(autoDf.columns), "source"), Strip, old(autoDf.rows[i])["source" := CStr("automated")])
  {
    autoDf.Assign("source", Constant(|autoDf.rows|, CStr("automated")));
    df.Assign("source", Constant(|df.rows|, CStr("automated")));
    autoDf.Relabel(Strip);
  }

  /** The outcome `NormalizeFrame` promises when it succeeds: the derived columns
      appended, and each row normalised from its payload. */
  ghost predicate NormalizedFrom(lib: Library, columns0: seq<string>, rows0: seq<Row>,
                                 columns: seq<string>, rows: seq<Row>)
  {
    && |rows| == |rows0|
    && columns == NormalizedColumns(columns0)
    && forall i :: 0 <= i < |rows| ==>
      && "response" in rows0[i] && "timestamp" in rows0[i]
      && ("time_to_create" in columns0 ==> "time_to_create" in rows0[i])
      && Readable(ParseResponse(lib, rows0[i]["response"]))
      && rows[i] == NormalizeRow(lib, "time_to_create" in columns0, rows0[i])
  }

  /** Lines 67-85: `for df_target in [df, auto_df]`. The first failure stops the
      script, so the second table is only normalised when the first succeeded. */
  method NormalizeBoth(df: DataFrame, autoDf: DataFrame, lib: Library) returns (err: Option<FrameError>)
    requires df.Valid() && autoDf.Valid() && df != autoDf
    modifies df, autoDf
    ensures df.Valid() && autoDf.Valid()
    ensures err == if FirstError(lib, old(df.columns), old(df.rows)).Some?
      then FirstError(lib, old(df.columns), old(df.rows))
      else FirstError(lib, old(autoDf.columns), old(autoDf.rows))
    ensures err == None ==> NormalizedFrom(lib, old(df.columns), old(df.rows), df.columns, df.rows)
    ensures err == None ==> NormalizedFrom(lib, old(autoDf.columns), old(autoDf.rows), autoDf.columns, autoDf.rows)
  {
    var targets := [df, autoDf];
    var k := 0;
    err := None;
    while k < 2
      invariant 0 <= k <= 2 && err == None
      invariant df.Valid() && autoDf.Valid()
      invariant k == 0 ==> df.columns == old(df.columns) && df.rows == old(df.rows)
      invariant k < 2 ==> autoDf.columns == old(autoDf.columns) && autoDf.rows == old(autoDf.rows)
      invariant k >= 1 ==> FirstError(lib, old(df.columns), old(df.rows)) == None
      invariant k >= 1 ==> NormalizedFrom(lib, old(df.columns), old(df.rows), df.columns, df.rows)
      invariant k == 2 ==> FirstError(lib, old(autoDf.columns), old(autoDf.rows)) == None
      invariant k == 2 ==> NormalizedFrom(lib, old(autoDf.columns), old(autoDf.rows), autoDf.columns, autoDf.rows)
    {
      var target := targets[k];
      ghost var columns0, rows0 := target.columns, target.rows;
      err := NormalizeFrame(target, lib);
      if err != None {
        return;
      }
      assert NormalizedFrom(lib, columns0, rows0, target.columns, target.rows);
      k := k + 1;
    }
  }
}

=== FILE: reconcile.dfy ===
/** The comparison tab: both tables lose repeated column names, keep the
    columns of a fixed list that both have, and are stacked, manual rows first. */
module Reconcile {
  import opened Wrappers
  import opened Values
  import opened Seqs
  import opened Frames

  /** The columns the comparison may show. */
  const CommonCols: seq<string> := ["timestamp", "name", "response", "source", "tool_name", "time_to_create"]

  lemma DedupElems(xs: seq<string>)
    ensures Elems(Dedup(xs)) == Elems(xs)
  {
    var d := Dedup(xs);
    forall x | x in Elems(d) ensures x in Elems(xs) {
      var k :| 0 <= k < |d| && d[k] == x;
    }
    forall x | x in Elems(xs) ensures x in Elems(d) {
      var k :| 0 <= k < |xs| && xs[k] == x;
    }
  }

  /** `cols_to_use`: the `common_cols` entries present in both de-duplicated
      headers. Only the set is determined; Python's set order is not. */
  function ColsToUse(manualColumns: seq<string>, autoColumns: seq<string>): (s: set<string>)
    ensures s == Elems(CommonCols) * Elems(manualColumns) * Elems(autoColumns)
  {
    DedupElems(manualColumns);
    DedupElems(autoColumns);
    Elems(Filter(CommonCols, Elems(Dedup(manualColumns)))) * Elems(Filter(CommonCols, Elems(Dedup(autoColumns))))
  }

  /** One listing of `cols_to_use`: the `common_cols` entries of the first header
      that the second also has. */
  function ChosenColumns(manualColumns: seq<string>, autoColumns: seq<string>): (cols: seq<string>)
    ensures NoDuplicates(cols)
    ensures Elems(cols) == Elems(CommonCols) * Elems(manualColumns) * Elems(autoColumns)
  {
    assert NoDuplicates(CommonCols);
    var manualCols := Filter(CommonCols, Elems(manualColumns));
    var autoCols := Filter(CommonCols, Elems(autoColumns));
    Filter(manualCols, Elems(autoCols))
  }

  /** `df[cols]` row by row. */
  function Project(rows: seq<Row>, keep: set<string>): (r: seq<Row>)
    ensures |r| == |rows|
    ensures forall i :: 0 <= i < |rows| ==> r[i] == Restrict(rows[i], keep)
  {
    if rows == [] then [] else [Restrict(rows[0], keep)] + Project(rows[1..], keep)
  }

  /** `pd.concat([manual_df, auto_df], ignore_index=True)` after both are projected. */
  function CombinedRows(keep: set<string>, manualRows: seq<Row>, autoRows: seq<Row>): (r: seq<Row>)
    ensures |r| == |manualRows| + |autoRows|
    ensures forall i :: 0 <= i < |manualRows| ==> r[i] == Restrict(manualRows[i], keep)
    ensures forall j :: 0 <= j < |autoRows| ==> r[|manualRows| + j] == Restrict(autoRows[j], keep)
  {
    Project(manualRows, keep) + Project(autoRows, keep)
  }

  /** Stacking two well-formed tables projected onto columns both have gives a
      table whose every row has exactly those columns. */
  lemma CombinedWellFormed(manualColumns: seq<string>, manualRows: seq<Row>,
                           autoColumns: seq<string>, autoRows: seq<Row>, columns: seq<string>)
    requires WellFormed(manualColumns, manualRows) && WellFormed(autoColumns, autoRows)
    requires Elems(columns) == ColsToUse(manualColumns, autoColumns)
    ensures WellFormed(columns, CombinedRows(Elems(columns), manualRows, autoRows))
  {
    var r := CombinedRows(Elems(columns), manualRows, autoRows);
    forall i | 0 <= i < |r| ensures r[i].Keys == Elems(columns) {
      if i < |manualRows| {
        assert r[i].Keys == manualRows[i].Keys * Elems(columns);
      } else {
        assert r[i].Keys == autoRows[i - |manualRows|].Keys * Elems(columns);
      }
    }
  }

  /** Lines 167-182. An empty manual table shows nothing (`None`); otherwise both
      tables are de-duplicated and projected in place and the stacked table is returned. */
  method ReconcileFrames(manual: DataFrame, auto: DataFrame) returns (combined: Option<DataFrame>)
    requires manual.Valid() && auto.Valid() && manual != auto
    modifies manual, auto
    ensures old(manual.Empty()) ==> combined == None
    ensures old(manual.Empty()) ==> unchanged(manual) && unchanged(auto)
    ensures !old(manual.Empty()) ==> combined.Some? && fresh(combined.value)
    ensures combined.Some? ==>
      && combined.value.Valid() && manual.Valid() && auto.Valid()
      && NoDuplicates(combined.value.columns)
      && Elems(combined.value.columns) == ColsToUse(old(manual.columns), old(auto.columns))
      && combined.value.rows == CombinedRows(Elems(combined.value.columns), old(manual.rows), old(auto.rows))
      && manual.columns == combined.value.columns && auto.columns == combined.value.columns
      && manual.rows == Project(old(manual.rows), Elems(combined.value.columns))
      && auto.rows == Project(old(auto.rows), Elems(combined.value.columns))
  {
    if manual.Empty() {
      return None;
    }
    ghost var manualColumns, autoColumns := manual.columns, auto.columns;
    ghost var manualRows, autoRows := manual.rows, auto.rows;
    manual.DropDuplicateColumns();
    auto.DropDuplicateColumns();
    var cols := ChosenColumns(manual.columns, auto.columns);
    DedupElems(manualColumns);
    DedupElems(autoColumns);
    assert Elems(cols) == ColsToUse(manualColumns, autoColumns);
    manual.Select(cols);
    assert manual.rows == Project(manualRows, Elems(cols));
    auto.Select(cols);
    assert auto.rows == Project(autoRows, Elems(cols));
    CombinedWellFormed(manualColumns, manualRows, autoColumns, autoRows, cols);
    assert manual.rows + auto.rows == CombinedRows(Elems(cols), manualRows, autoRows);
    var frame := new DataFrame(cols, manual.rows + auto.rows);
    return Some(frame);
  }
}

=== FILE: seqs.dfy ===
/** Sequence helpers shared by the table operations and the aggregations:
    membership, first occurrence, first-occurrence de-duplication, filtering
    by a set, and occurrence counts. */
module Seqs {

  /** The set of elements of a sequence. */
  function Elems<T>(xs: seq<T>): set<T>
  {
    set x | x in xs
  }

  lemma ElemsConcat<T>(a: seq<T>, b: seq<T>)
    ensures Elems(a + b) == Elems(a) + Elems(b)
  {
    assert forall x :: x in a + b <==> x in a || x in b;
  }

  /** True when no element occurs twice. */
  predicate NoDuplicates<T(==)>(xs: seq<T>)
  {
    forall i, j :: 0 <= i < j < |xs| ==> xs[i] != xs[j]
  }

  /** The index of the first occurrence of `x` in `xs`. */
  function First<T(==)>(xs: seq<T>, x: T): (k: nat)
    requires x in xs
    ensures k < |xs| && xs[k] == x && x !in xs[..k]
  {
    if xs[0] == x then 0 else 1 + First(xs[1..], x)
  }

  lemma {:induction false} FirstOfPrefix<T>(xs: seq<T>, y: T, x: T)
    requires x in xs
    ensures First(xs + [y], x) == First(xs, x)
  {
    if xs[0] != x {
      assert (xs + [y])[1..] == xs[1..] + [y];
      FirstOfPrefix(xs[1..], y, x);
    }
  }

  lemma FirstOfLast<T>(xs: seq<T>, x: T)
    requires x !in xs
    ensures First(xs + [x], x) == |xs|
  {
  }

  /** `pandas.Index.duplicated()` with keep='first', negated: the elements of `xs`
      at their first occurrence, in the order of those occurrences. */
  function Dedup<T(==)>(xs: seq<T>): (r: seq<T>)
    ensures NoDuplicates(r)
    ensures forall i :: 0 <= i < |r| ==> r[i] in xs
    ensures forall i :: 0 <= i < |xs| ==> xs[i] in r
    ensures forall i, j :: 0 <= i < j < |r| ==> First(xs, r[i]) < First(xs, r[j])
  {
    if xs == [] then []
    else
      var init := xs[..|xs| - 1];
      var d := Dedup(init);
      var x := xs[|xs| - 1];
      assert xs == init + [x];
      forall y | y in init ensures First(xs, y) == First(init, y) {
        FirstOfPrefix(init, x, y);
      }
      if x in d then d
      else
        FirstOfLast(init, x);
        d + [x]
  }

  /** The elements of `xs` that belong to `keep`, in the order of `xs`
      (the comprehension `[c for c in xs if c in keep]`). */
  function Filter<T>(xs: seq<T>, keep: set<T>): (r: seq<T>)
    ensures |r| <= |xs|
    ensures forall i :: 0 <= i < |r| ==> r[i] in xs && r[i] in keep
    ensures forall i :: 0 <= i < |xs| && xs[i] in keep ==> xs[i] in r
    ensures NoDuplicates(xs) ==> NoDuplicates(r)
  {
    if xs == [] then []
    else
      var rest := Filter(xs[1..], keep);
      assert xs == [xs[0]] + xs[1..];
      if xs[0] in keep then
        assert NoDuplicates(xs) ==> xs[0] !in rest;
        [xs[0]] + rest
      else rest
  }

  /** `Filter` keeps the order of `xs`. */
  lemma {:induction false} FilterOrder<T>(xs: seq<T>, keep: set<T>)
    requires NoDuplicates(xs)
    ensures forall i, j :: 0 <= i < j < |Filter(xs, keep)| ==>
      First(xs, Filter(xs, keep)[i]) < First(xs, Filter(xs, keep)[j])
  {
    if xs != [] {
      var tail := xs[1..];
      FilterOrder(tail, keep);
      var rest := Filter(tail, keep);
      if xs[0] in keep {
        var r := [xs[0]] + rest;
        assert Filter(xs, keep) == r;
        forall i, j | 0 <= i < j < |r| ensures First(xs, r[i]) < First(xs, r[j]) {
          FirstOfTail(xs, r[j]);
          if i > 0 { FirstOfTail(xs, r[i]); }
        }
      } else {
        assert Filter(xs, keep) == rest;
        forall i, j | 0 <= i < j < |rest| ensures First(xs, rest[i]) < First(xs, rest[j]) {
          FirstOfTail(xs, rest[i]);
          FirstOfTail(xs, rest[j]);
        }
      }
    }
  }

  lemma FirstOfTail<T>(xs: seq<T>, y: T)
    requires NoDuplicates(xs) && xs != [] && y in xs[1..]
    ensures First(xs, y) == 1 + First(xs[1..], y)
  {
    var k :| 1 <= k < |xs| && xs[k] == y;
    assert xs[0] != xs[k];
  }

  /** Adding an index above every index of a set adds one to its size. */
  lemma AddIndex(s: set<int>, n: int)
    requires forall i :: i in s ==> i < n
    ensures |s + {n}| == |s| + 1
  {
    assert n !in s;
  }

  /** The number of occurrences of `x` in `xs`. */
  function Count<T(==)>(xs: seq<T>, x: T): (n: nat)
    ensures n <= |xs|
    ensures n > 0 <==> x in xs
  {
    if xs == [] then 0
    else (if xs[|xs| - 1] == x then 1 else 0) + Count(xs[..|xs| - 1], x)
  }

  /** The sum of the counts in `xs` of the elements of `ks`. */
  function SumCounts<T(==)>(xs: seq<T>, ks: seq<T>): nat
  {
    if ks == [] then 0 else Count(xs, ks[0]) + SumCounts(xs, ks[1..])
  }

  lemma {:induction false} SumCountsSnoc<T>(xs: seq<T>, x: T, ks: seq<T>)
    ensures SumCounts(xs + [x], ks) == SumCounts(xs, ks) + Count(ks, x)
  {
    if ks != [] {
      SumCountsSnoc(xs, x, ks[1..]);
      assert (xs + [x])[..|xs + [x]| - 1] == xs;
      CountHead(ks, x);
    }
  }

  lemma {:induction false} CountHead<T>(xs: seq<T>, x: T)
    requires xs != []
    ensures Count(xs, x) == (if xs[0] == x then 1 else 0) + Count(xs[1..], x)
  {
    if |xs| > 1 {
      var init := xs[..|xs| - 1];
      CountHead(init, x);
      assert init[1..] == xs[1..][..|xs[1..]| - 1];
    }
  }

  lemma {:induction false} CountDistinct<T>(ks: seq<T>, x: T)
    requires NoDuplicates(ks)
    ensures Count(ks, x) == if x in ks then 1 else 0
  {
    if ks != [] {
      CountHead(ks, x);
      CountDistinct(ks[1..], x);
      if ks[0] == x { assert x !in ks[1..]; }
    }
  }

  /** Counting every element of a duplicate-free key list that covers `xs`
      accounts for every element of `xs` exactly once. */
  lemma {:induction false} SumCountsCovering<T>(xs: seq<T>, ks: seq<T>)
    requires NoDuplicates(ks)
    requires forall x :: x in xs ==> x in ks
    ensures SumCounts(xs, ks) == |xs|
  {
    if xs == [] {
      SumCountsEmpty(ks);
    } else {
      var init := xs[..|xs| - 1];
      var x := xs[|xs| - 1];
      assert xs == init + [x];
      SumCountsCovering(init, ks);
      SumCountsSnoc(init, x, ks);
      CountDistinct(ks, x);
    }
  }

  lemma {:induction false} SumCountsEmpty<T>(ks: seq<T>)
    ensures SumCounts([], ks) == 0
  {
    if ks != [] { SumCountsEmpty(ks[1..]); }
  }
}

=== FILE: text.dfy ===
/** The string operations the script applies to headers and issue keys:
    `str.strip()`, `str.lower()` and `s.split('-')[0]`. */
module Text {

  /** Python's `str.isspace()` for one character: the ASCII whitespace and
      separator controls, NEL, NO-BREAK SPACE and the Unicode space separators. */
  predicate IsSpace(c: char)
  {
    c in {' ', '\U{9}', '\U{A}', '\U{D}', '\U{B}', '\U{C}', '\U{1C}', '\U{1D}',
          '\U{1E}', '\U{1F}', '\U{85}', '\U{A0}', '\U{1680}', '\U{2000}', '\U{2001}', '\U{2002}',
          '\U{2003}', '\U{2004}', '\U{2005}', '\U{2006}', '\U{2007}', '\U{2008}', '\U{2009}', '\U{200A}',
          '\U{2028}', '\U{2029}', '\U{202F}', '\U{205F}', '\U{3000}'}
  }

  /** `s.lstrip()`: the longest whitespace prefix removed. */
  function TrimStart(s: string): (r: string)
    ensures |r| <= |s| && r == s[|s| - |r|..]
    ensures forall i :: 0 <= i < |s| - |r| ==> IsSpace(s[i])
    ensures r == [] || !IsSpace(r[0])
  {
    if s != [] && IsSpace(s[0]) then TrimStart(s[1..]) else s
  }

  /** `s.rstrip()`: the longest whitespace suffix removed. */
  function TrimEnd(s: string): (r: string)
    ensures |r| <= |s| && r == s[..|r|]
    ensures forall i :: |r| <= i < |s| ==> IsSpace(s[i])
    ensures r == [] || !IsSpace(r[|r| - 1])
  {
    if s != [] && IsSpace(s[|s| - 1]) then TrimEnd(s[..|s| - 1]) else s
  }

  /** `s.strip()`. */
  function Strip(s: string): (r: string)
    ensures r == [] || (!IsSpace(r[0]) && !IsSpace(r[|r| - 1]))
    ensures var k := |s| - |TrimStart(s)|;
      && k + |r| <= |s|
      && r == s[k..k + |r|]
      && (forall i :: 0 <= i < k ==> IsSpace(s[i]))
      && (forall i :: k + |r| <= i < |s| ==> IsSpace(s[i]))
  {
    TrimEnd(TrimStart(s))
  }

  /** A string without leading or trailing whitespace is its own `strip()`. */
  lemma StripTrimmed(s: string)
    requires s == [] || (!IsSpace(s[0]) && !IsSpace(s[|s| - 1]))
    ensures Strip(s) == s
  {
  }

  /** `str.lower()` on one ASCII letter; other characters are unchanged. */
  function LowerChar(c: char): char
  {
    if 'A' <= c <= 'Z' then (c as int - 'A' as int + 'a' as int) as char else c
  }

  /** `s.lower()`, for ASCII letters. */
  function Lower(s: string): (r: string)
    ensures |r| == |s|
    ensures forall i :: 0 <= i < |s| ==> r[i] == LowerChar(s[i])
    ensures forall i :: 0 <= i < |r| ==> !('A' <= r[i] <= 'Z')
  {
    seq(|s|, i requires 0 <= i < |s| => LowerChar(s[i]))
  }

  /** Text without upper-case letters is its own lower-case form. */
  lemma LowerOfLowered(s: string)
    requires forall i :: 0 <= i < |s| ==> !('A' <= s[i] <= 'Z')
    ensures Lower(s) == s
  {
    assert forall i :: 0 <= i < |s| ==> Lower(s)[i] == s[i];
  }

  /** `s.split('-')[0]`: the text before the first `-`, or all of `s` when it has none. */
  function BeforeDash(s: string): (p: string)
    ensures |p| <= |s| && p == s[..|p|]
    ensures '-' !in p
    ensures |p| == |s| || s[|p|] == '-'
  {
    if s == [] || s[0] == '-' then [] else [s[0]] + BeforeDash(s[1..])
  }

  /** The three properties of `BeforeDash` determine it: the only dash-free prefix
      of `s` that reaches the end or a dash is the text before the first dash. */
  lemma {:induction false} BeforeDashUnique(s: string, p: string)
    requires |p| <= |s| && p == s[..|p|]
    requires '-' !in p
    requires |p| == |s| || s[|p|] == '-'
    ensures BeforeDash(s) == p
  {
    if s != [] && s[0] != '-' {
      assert p[0] == s[0];
      BeforeDashUnique(s[1..], p[1..]);
    }
  }

  /** A key `PROJ-123` gives `PROJ`; more dashes after the first do not matter. */
  lemma BeforeDashOfKey(prefix: string, rest: string)
    requires '-' !in prefix
    ensures BeforeDash(prefix + "-" + rest) == prefix
  {
    var s := prefix + "-" + rest;
    assert s[..|prefix|] == prefix;
    BeforeDashUnique(s, prefix);
  }

  /** A key with no dash is its own prefix. */
  lemma BeforeDashNoDash(s: string)
    requires '-' !in s
    ensures BeforeDash(s) == s
  {
    BeforeDashUnique(s, s);
  }
}

=== FILE: tools.dfy ===
/** Per-tool statistics of `time_to_create`: the mean per tool sorted ascending
    with its fastest tool (the "north star"), and the usage count and mean per tool. */
module Tools {
  import opened Wrappers
  import opened Values
  import opened Seqs

  /** Every row has the two columns the group-by reads (otherwise pandas raises
      `KeyError`), and every duration is a number or null, as `pd.to_numeric` leaves it. */
  predicate HasToolColumns(rows: seq<Row>)
  {
    forall i :: 0 <= i < |rows| ==>
      && "tool_name" in rows[i] && "time_to_create" in rows[i]
      && (rows[i]["time_to_create"].CNum? || rows[i]["time_to_create"] == CNull)
  }

  /** The non-null `tool_name` values of the rows, in row order: a row whose tool
      is null belongs to no group. */
  function ToolCells(rows: seq<Row>): (tools: seq<Cell>)
    requires HasToolColumns(rows)
    ensures CNull !in tools
    ensures forall i :: 0 <= i < |rows| && rows[i]["tool_name"] != CNull ==> rows[i]["tool_name"] in tools
    ensures forall t :: t in tools ==> exists i :: 0 <= i < |rows| && rows[i]["tool_name"] == t
  {
    if rows == [] then []
    else
      var init := ToolCells(rows[..|rows| - 1]);
      var tool := rows[|rows| - 1]["tool_name"];
      assert forall t :: t in init ==> exists i :: 0 <= i < |rows| - 1 && rows[i]["tool_name"] == t;
      if tool != CNull then init + [tool] else init
  }

  /** The rows with a non-null tool. */
  ghost function Named(rows: seq<Row>): set<int>
    requires HasToolColumns(rows)
  {
    set i | 0 <= i < |rows| && rows[i]["tool_name"] != CNull
  }

  /** Those of them whose tool is `t`. */
  ghost function ToolRows(rows: seq<Row>, t: Cell): set<int>
    requires HasToolColumns(rows)
  {
    set i | 0 <= i < |rows| && rows[i]["tool_name"] != CNull && rows[i]["tool_name"] == t
  }

  lemma NamedStep(rows: seq<Row>)
    requires rows != [] && HasToolColumns(rows)
    ensures var n := |rows| - 1;
      Named(rows) == Named(rows[..n]) + (if rows[n]["tool_name"] != CNull then {n} else {})
  {
    var n := |rows| - 1;
    forall i | 0 <= i < n ensures rows[..n][i] == rows[i] {}
  }

  lemma ToolRowsStep(rows: seq<Row>, t: Cell)
    requires rows != [] && HasToolColumns(rows)
    ensures var n := |rows| - 1;
      ToolRows(rows, t) == ToolRows(rows[..n], t) + (if rows[n]["tool_name"] != CNull && rows[n]["tool_name"] == t then {n} else {})
  {
    var n := |rows| - 1;
    forall i | 0 <= i < n ensures rows[..n][i] == rows[i] {}
  }

  /** A tool occurs in `ToolCells` once for each of its rows. */
  lemma {:induction false} ToolCellsCount(rows: seq<Row>, t: Cell)
    requires HasToolColumns(rows)
    ensures Count(ToolCells(rows), t) == |ToolRows(rows, t)|
  {
    if rows != [] {
      var n := |rows| - 1;
      var before := ToolCells(rows[..n]);
      ToolCellsCount(rows[..n], t);
      ToolRowsStep(rows, t);
      AddIndex(ToolRows(rows[..n], t), n);
      if rows[n]["tool_name"] != CNull {
        var after := before + [rows[n]["tool_name"]];
        assert after[..|after| - 1] == before;
      }
    }
  }

  /** `ToolCells` has one entry per row with a tool. */
  lemma {:induction false} ToolCellsSize(rows: seq<Row>)
    requires HasToolColumns(rows)
    ensures |ToolCells(rows)| == |Named(rows)|
  {
    if rows != [] {
      var n := |rows| - 1;
      ToolCellsSize(rows[..n]);
      NamedStep(rows);
      AddIndex(Named(rows[..n]), n);
    }
  }

  /** The group keys: each non-null tool once, in order of first appearance. */
  function Groups(rows: seq<Row>): seq<Cell>
    requires HasToolColumns(rows)
  {
    Dedup(ToolCells(rows))
  }

  /** The numeric `time_to_create` values of the rows of `tool`, in row order;
      null values are skipped. */
  function Durations(rows: seq<Row>, tool: Cell): seq<real>
    requires HasToolColumns(rows)
  {
    if rows == [] then []
    else
      var init := Durations(rows[..|rows| - 1], tool);
      var row := rows[|rows| - 1];
      match row["time_to_create"]
      case CNum(x) => if row["tool_name"] == tool then init + [x] else init
      case _ => init
  }

  function SumOf(xs: seq<real>): real
  {
    if xs == [] then 0.0 else SumOf(xs[..|xs| - 1]) + xs[|xs| - 1]
  }

  /** `mean()` of a group: `None` (NaN) when the group has no numeric value. */
  function Mean(rows: seq<Row>, tool: Cell): (m: Option<real>)
    requires HasToolColumns(rows)
    ensures m.None? <==> Durations(rows, tool) == []
    ensures m.Some? ==> m.value * (|Durations(rows, tool)| as real) == SumOf(Durations(rows, tool))
  {
    var d := Durations(rows, tool);
    if d == [] then None
    else
      var n := |d| as real;
      assert (SumOf(d) / n) * n == SumOf(d);
      Some(SumOf(d) / n)
  }

  lemma {:induction false} SumAtLeast(xs: seq<real>, lo: real)
    requires forall i :: 0 <= i < |xs| ==> lo <= xs[i]
    ensures lo * (|xs| as real) <= SumOf(xs)
  {
    if xs != [] {
      SumAtLeast(xs[..|xs| - 1], lo);
    }
  }

  lemma {:induction false} SumAtMost(xs: seq<real>, hi: real)
    requires forall i :: 0 <= i < |xs| ==> xs[i] <= hi
    ensures SumOf(xs) <= hi * (|xs| as real)
  {
    if xs != [] {
      SumAtMost(xs[..|xs| - 1], hi);
    }
  }

  lemma QuotientBetween(total: real, n: real, lo: real, hi: real)
    requires n > 0.0 && lo * n <= total <= hi * n
    ensures lo <= total / n <= hi
  {
    assert (total / n) * n == total;
  }

  /** The mean of a group lies between any lower and any upper bound of its values. */
  lemma MeanBetween(rows: seq<Row>, tool: Cell, lo: real, hi: real)
    requires HasToolColumns(rows) && Mean(rows, tool).Some?
    requires forall i :: 0 <= i < |Durations(rows, tool)| ==> lo <= Durations(rows, tool)[i] <= hi
    ensures lo <= Mean(rows, tool).value <= hi
  {
    var d := Durations(rows, tool);
    var n := |d| as real;
    SumAtLeast(d, lo);
    SumAtMost(d, hi);
    QuotientBetween(SumOf(d), n, lo, hi);
  }

  /** A row whose `time_to_create` is not a number changes no mean. */
  lemma MeanIgnoresNull(rows: seq<Row>, row: Row, tool: Cell)
    requires HasToolColumns(rows) && HasToolColumns(rows + [row])
    requires "time_to_create" in row && !row["time_to_create"].CNum?
    ensures Mean(rows + [row], tool) == Mean(rows, tool)
  {
    assert (rows + [row])[..|rows|] == rows;
  }

  /** A tool has a mean exactly when one of its rows has a numeric `time_to_create`. */
  lemma {:induction false} MeanDefined(rows: seq<Row>, tool: Cell)
    requires HasToolColumns(rows)
    ensures Mean(rows, tool).Some? <==>
      exists i :: 0 <= i < |rows| && rows[i]["tool_name"] == tool && rows[i]["time_to_create"].CNum?
  {
    if rows != [] {
      var init := rows[..|rows| - 1];
      MeanDefined(init, tool);
      if exists i :: 0 <= i < |init| && init[i]["tool_name"] == tool && init[i]["time_to_create"].CNum? {
        var i :| 0 <= i < |init| && init[i]["tool_name"] == tool && init[i]["time_to_create"].CNum?;
        assert rows[i] == init[i];
      }
    }
  }

  /** One summary entry: a tool and its mean (`None` for NaN). */
  type Entry = (Cell, Option<real>)

  /** The order of `sort_values()`: ascending, NaN last. */
  predicate MeanLeq(a: Option<real>, b: Option<real>)
  {
    match a
    case None => b.None?
    case Some(x) => b.None? || x <= b.value
  }

  predicate SortedByMean(s: seq<Entry>)
  {
    forall i, j :: 0 <= i < j < |s| ==> MeanLeq(s[i].1, s[j].1)
  }

  /** No tool is listed twice. */
  predicate DistinctTools(s: seq<Entry>)
  {
    forall i, j :: 0 <= i < j < |s| ==> s[i].0 != s[j].0
  }

  /** The entry of each group key, in key order. */
  function ToolMeans(rows: seq<Row>, keys: seq<Cell>): (s: seq<Entry>)
    requires HasToolColumns(rows)
    ensures |s| == |keys|
    ensures forall i :: 0 <= i < |keys| ==> s[i] == (keys[i], Mean(rows, keys[i]))
  {
    if keys == [] then [] else [(keys[0], Mean(rows, keys[0]))] + ToolMeans(rows, keys[1..])
  }

  /** `e` placed after every entry whose mean is not larger. */
  function InsertByMean(e: Entry, s: seq<Entry>): seq<Entry>
  {
    if s == [] || !MeanLeq(s[0].1, e.1) then [e] + s
    else [s[0]] + InsertByMean(e, s[1..])
  }

  lemma {:induction false} InsertByMeanSorted(e: Entry, s: seq<Entry>)
    requires SortedByMean(s)
    ensures InsertByMean(e, s) != []
    ensures InsertByMean(e, s)[0] == if s == [] || !MeanLeq(s[0].1, e.1) then e else s[0]
    ensures SortedByMean(InsertByMean(e, s))
  {
    if s != [] && MeanLeq(s[0].1, e.1) {
      var rest := InsertByMean(e, s[1..]);
      InsertByMeanSorted(e, s[1..]);
      forall j | 0 <= j < |rest| ensures MeanLeq(s[0].1, rest[j].1) {
        if j > 0 {
          assert MeanLeq(rest[0].1, rest[j].1);
        }
      }
    }
  }

  lemma {:induction false} InsertByMeanPermutes(e: Entry, s: seq<Entry>)
    ensures multiset(InsertByMean(e, s)) == multiset(s) + multiset{e}
  {
    if s != [] && MeanLeq(s[0].1, e.1) {
      InsertByMeanPermutes(e, s[1..]);
      assert s == [s[0]] + s[1..];
    }
  }

  /** `sort_values()` on the means. */
  function SortByMean(s: seq<Entry>): seq<Entry>
  {
    if s == [] then [] else InsertByMean(s[|s| - 1], SortByMean(s[..|s| - 1]))
  }

  /** The sorted summary is ascending (NaN last) and a permutation of its input. */
  lemma {:induction false} SortByMeanFacts(s: seq<Entry>)
    ensures SortedByMean(SortByMean(s))
    ensures multiset(SortByMean(s)) == multiset(s)
  {
    if s != [] {
      var init := s[..|s| - 1];
      SortByMeanFacts(init);
      InsertByMeanSorted(s[|s| - 1], SortByMean(init));
      InsertByMeanPermutes(s[|s| - 1], SortByMean(init));
      assert s == init + [s[|s| - 1]];
    }
  }

  lemma {:induction false} InsertKeepsDistinct(e: Entry, s: seq<Entry>)
    requires DistinctTools(s)
    requires forall i :: 0 <= i < |s| ==> s[i].0 != e.0
    ensures DistinctTools(InsertByMean(e, s))
  {
    if s != [] && MeanLeq(s[0].1, e.1) {
      InsertKeepsDistinct(e, s[1..]);
      InsertByMeanPermutes(e, s[1..]);
      var rest := InsertByMean(e, s[1..]);
      forall j | 0 <= j < |rest| ensures rest[j].0 != s[0].0 {
        assert rest[j] in multiset(rest);
        if rest[j] != e {
          assert rest[j] in s[1..];
        }
      }
    }
  }

  lemma {:induction false} SortKeepsDistinct(s: seq<Entry>)
    requires DistinctTools(s)
    ensures DistinctTools(SortByMean(s))
  {
    if s != [] {
      var init := s[..|s| - 1];
      var last := s[|s| - 1];
      SortKeepsDistinct(init);
      SortByMeanFacts(init);
      var sorted := SortByMean(init);
      forall i | 0 <= i < |sorted| ensures sorted[i].0 != last.0 {
        assert sorted[i] in multiset(init);
      }
      InsertKeepsDistinct(last, sorted);
    }
  }

  /** Line 113: the mean per tool, sorted ascending with NaN last. */
  function ToolSummary(rows: seq<Row>): (summary: seq<Entry>)
    requires HasToolColumns(rows)
    ensures SortedByMean(summary) && |summary| == |Groups(rows)|
  {
    var means := ToolMeans(rows, Groups(rows));
    SortByMeanFacts(means);
    assert |SortByMean(means)| == |multiset(SortByMean(means))| == |multiset(means)| == |means|;
    SortByMean(means)
  }

  /** The summary is in ascending order of mean, NaN last, and names no tool twice. */
  lemma ToolSummaryOrdered(rows: seq<Row>)
    requires HasToolColumns(rows)
    ensures SortedByMean(ToolSummary(rows)) && DistinctTools(ToolSummary(rows))
  {
    SortKeepsDistinct(ToolMeans(rows, Groups(rows)));
    SortByMeanFacts(ToolMeans(rows, Groups(rows)));
  }

  lemma SameMembers(a: seq<Entry>, b: seq<Entry>)
    requires multiset(a) == multiset(b)
    ensures forall e :: e in a <==> e in b
  {
    forall e ensures e in a <==> e in b {
      assert e in a <==> e in multiset(a);
      assert e in b <==> e in multiset(b);
    }
  }

  lemma {:induction false} MeansEntries(rows: seq<Row>)
    requires HasToolColumns(rows)
    ensures forall e: Entry :: e in ToolMeans(rows, Groups(rows)) <==> e.0 in ToolCells(rows) && e.1 == Mean(rows, e.0)
  {
    var tools := ToolCells(rows);
    var keys := Dedup(tools);
    var means := ToolMeans(rows, keys);
    forall e | e in means ensures e.0 in tools && e.1 == Mean(rows, e.0) {
      var i :| 0 <= i < |means| && means[i] == e;
      assert keys[i] in tools;
    }
    forall e: Entry | e.0 in tools && e.1 == Mean(rows, e.0) ensures e in means {
      var k :| 0 <= k < |tools| && tools[k] == e.0;
      var i :| 0 <= i < |keys| && keys[i] == e.0;
      assert means[i] == e;
    }
  }

  /** The summary's entries are exactly the non-null tools, each with its mean. */
  lemma ToolSummaryEntries(rows: seq<Row>)
    requires HasToolColumns(rows)
    ensures forall e: Entry :: e in ToolSummary(rows) <==> e.0 in ToolCells(rows) && e.1 == Mean(rows, e.0)
  {
    var means := ToolMeans(rows, Groups(rows));
    SortByMeanFacts(means);
    SameMembers(ToolSummary(rows), means);
    MeansEntries(rows);
  }

  /** What `idxmin()` raises on an empty series (ValueError: attempt to get argmin
      of an empty sequence): no row had a tool. */
  datatype NorthStarError = EmptySummary

  /** Lines 116-117: `idxmin()` and `min()` of the sorted summary. An empty summary
      raises; a summary whose every mean is NaN has no north star (`None`). */
  function NorthStar(summary: seq<Entry>): (r: Result<Option<(Cell, real)>, NorthStarError>)
    ensures r.Err? <==> summary == []
    ensures r.Ok? && r.value.Some? ==> (r.value.value.0, Some(r.value.value.1)) in summary
  {
    if summary == [] then Err(EmptySummary)
    else if summary[0].1.Some? then Ok(Some((summary[0].0, summary[0].1.value)))
    else Ok(None)
  }

  /** On a sorted summary: the script stops exactly when the summary is empty; the
      north star's mean is the least mean; there is none exactly when the summary
      has entries but no entry has a mean. */
  lemma NorthStarIsMinimum(summary: seq<Entry>)
    requires SortedByMean(summary)
    ensures NorthStar(summary).Err? <==> summary == []
    ensures NorthStar(summary).Ok? && NorthStar(summary).value.Some? ==>
      forall i :: 0 <= i < |summary| && summary[i].1.Some? ==>
        NorthStar(summary).value.value.1 <= summary[i].1.value
    ensures NorthStar(summary) == Ok(None) <==>
      summary != [] && forall i :: 0 <= i < |summary| ==> summary[i].1.None?
  {
    if summary != [] && summary[0].1.None? {
      forall i | 0 <= i < |summary| ensures summary[i].1.None? {
        if i > 0 {
          assert MeanLeq(summary[0].1, summary[i].1);
        }
      }
    }
  }

  /** On the dashboard's own summary, the script stops at `idxmin()` exactly when
      no row has a tool. */
  lemma NorthStarFailsIffNoTool(rows: seq<Row>)
    requires HasToolColumns(rows)
    ensures NorthStar(ToolSummary(rows)).Err? <==> ToolCells(rows) == []
  {
    ToolSummaryEntries(rows);
    if ToolCells(rows) != [] {
      var t := ToolCells(rows)[0];
      assert (t, Mean(rows, t)) in ToolSummary(rows);
    }
  }

  /** The north star of the dashboard's own summary is a tool of the rows with
      that tool's mean, and no tool has a smaller mean. */
  lemma NorthStarOfRows(rows: seq<Row>)
    requires HasToolColumns(rows)
    requires NorthStar(ToolSummary(rows)).Ok? && NorthStar(ToolSummary(rows)).value.Some?
    ensures var star := NorthStar(ToolSummary(rows)).value.value;
      && star.0 in ToolCells(rows) && Mean(rows, star.0) == Some(star.1)
      && forall t :: t in ToolCells(rows) && Mean(rows, t).Some? ==> star.1 <= Mean(rows, t).value
  {
    var summary := ToolSummary(rows);
    ToolSummaryOrdered(rows);
    ToolSummaryEntries(rows);
    NorthStarIsMinimum(summary);
    var star := NorthStar(summary).value.value;
    forall t | t in ToolCells(rows) && Mean(rows, t).Some? ensures star.1 <= Mean(rows, t).value {
      assert (t, Mean(rows, t)) in summary;
      var i :| 0 <= i < |summary| && summary[i] == (t, Mean(rows, t));
    }
  }

  // Tool usage

  /** One usage line: a tool, the number of its numeric `time_to_create` values, and their mean. */
  type Usage = (Cell, nat, Option<real>)

  function UsageOf(rows: seq<Row>, keys: seq<Cell>): (u: seq<Usage>)
    requires HasToolColumns(rows)
    ensures |u| == |keys|
    ensures forall i :: 0 <= i < |keys| ==> u[i] == (keys[i], |Durations(rows, keys[i])|, Mean(rows, keys[i]))
  {
    if keys == [] then [] else [(keys[0], |Durations(rows, keys[0])|, Mean(rows, keys[0]))] + UsageOf(rows, keys[1..])
  }

  /** Line 199: `agg(['count', 'mean'])` per tool. */
  function ToolUsage(rows: seq<Row>): (usage: seq<Usage>)
    requires HasToolColumns(rows)
    ensures |usage| == |Groups(rows)|
    ensures forall i :: 0 <= i < |usage| ==> usage[i].0 != CNull && (usage[i].1 == 0 <==> usage[i].2.None?)
    ensures forall i :: 0 <= i < |usage| ==> usage[i].1 == |TimedRowsOf(rows, usage[i].0)|
  {
    DurationsRows(rows);
    UsageOf(rows, Groups(rows))
  }

  /** The usage table lists each non-null tool once, with the number of its rows
      that have a numeric duration and its mean. */
  lemma ToolUsageEntries(rows: seq<Row>)
    requires HasToolColumns(rows)
    ensures forall e: Usage :: e in ToolUsage(rows) <==>
      e.0 in ToolCells(rows) && e.1 == |TimedRowsOf(rows, e.0)| && e.2 == Mean(rows, e.0)
    ensures forall i, j :: 0 <= i < j < |ToolUsage(rows)| ==> ToolUsage(rows)[i].0 != ToolUsage(rows)[j].0
  {
    var tools := ToolCells(rows);
    var keys := Dedup(tools);
    var usage := ToolUsage(rows);
    assert usage == UsageOf(rows, keys);
    DurationsRows(rows);
    forall e | e in usage ensures e.0 in tools && e.1 == |TimedRowsOf(rows, e.0)| && e.2 == Mean(rows, e.0) {
      var i :| 0 <= i < |usage| && usage[i] == e;
      assert keys[i] in tools;
    }
    forall e: Usage | e.0 in tools && e.1 == |TimedRowsOf(rows, e.0)| && e.2 == Mean(rows, e.0) ensures e in usage {
      var k :| 0 <= k < |tools| && tools[k] == e.0;
      var i :| 0 <= i < |keys| && keys[i] == e.0;
      assert usage[i] == e;
    }
  }

  /** The tools of the rows with a non-null tool and a numeric `time_to_create`. */
  function TimedTools(rows: seq<Row>): seq<Cell>
    requires HasToolColumns(rows)
  {
    if rows == [] then []
    else
      var init := TimedTools(rows[..|rows| - 1]);
      var row := rows[|rows| - 1];
      if row["tool_name"] != CNull && row["time_to_create"].CNum? then init + [row["tool_name"]] else init
  }

  /** The rows with a non-null tool and a numeric `time_to_create`. */
  ghost function TimedRows(rows: seq<Row>): set<int>
    requires HasToolColumns(rows)
  {
    set i | 0 <= i < |rows| && rows[i]["tool_name"] != CNull && rows[i]["time_to_create"].CNum?
  }

  /** Those of them whose tool is `t`. */
  ghost function TimedRowsOf(rows: seq<Row>, t: Cell): set<int>
    requires HasToolColumns(rows)
  {
    set i | 0 <= i < |rows| && rows[i]["tool_name"] != CNull && rows[i]["time_to_create"].CNum? && rows[i]["tool_name"] == t
  }

  lemma TimedRowsStep(rows: seq<Row>)
    requires rows != [] && HasToolColumns(rows)
    ensures var n := |rows| - 1;
      TimedRows(rows) == TimedRows(rows[..n]) + (if rows[n]["tool_name"] != CNull && rows[n]["time_to_create"].CNum? then {n} else {})
  {
    var n := |rows| - 1;
    forall i | 0 <= i < n ensures rows[..n][i] == rows[i] {}
  }

  lemma TimedRowsOfStep(rows: seq<Row>, t: Cell)
    requires rows != [] && HasToolColumns(rows)
    ensures var n := |rows| - 1;
      TimedRowsOf(rows, t) == TimedRowsOf(rows[..n], t) + (if rows[n]["tool_name"] != CNull && rows[n]["time_to_create"].CNum? && rows[n]["tool_name"] == t then {n} else {})
  {
    var n := |rows| - 1;
    forall i | 0 <= i < n ensures rows[..n][i] == rows[i] {}
  }

  /** A tool occurs in `TimedTools` once for each of its rows with a numeric duration. */
  lemma {:induction false} TimedToolsCount(rows: seq<Row>, t: Cell)
    requires HasToolColumns(rows)
    ensures Count(TimedTools(rows), t) == |TimedRowsOf(rows, t)|
  {
    if rows != [] {
      var n := |rows| - 1;
      var before := TimedTools(rows[..n]);
      TimedToolsCount(rows[..n], t);
      TimedRowsOfStep(rows, t);
      AddIndex(TimedRowsOf(rows[..n], t), n);
      if rows[n]["tool_name"] != CNull && rows[n]["time_to_create"].CNum? {
        var after := before + [rows[n]["tool_name"]];
        assert after[..|after| - 1] == before;
      }
    }
  }

  /** `TimedTools` has one entry per row with a tool and a numeric duration. */
  lemma {:induction false} TimedToolsSize(rows: seq<Row>)
    requires HasToolColumns(rows)
    ensures |TimedTools(rows)| == |TimedRows(rows)|
  {
    if rows != [] {
      var n := |rows| - 1;
      TimedToolsSize(rows[..n]);
      TimedRowsStep(rows);
      AddIndex(TimedRows(rows[..n]), n);
    }
  }

  /** `count` per tool is the number of its rows with a numeric duration. */
  lemma DurationsRows(rows: seq<Row>)
    requires HasToolColumns(rows)
    ensures forall t :: t != CNull ==> |Durations(rows, t)| == |TimedRowsOf(rows, t)|
  {
    forall t | t != CNull ensures |Durations(rows, t)| == |TimedRowsOf(rows, t)| {
      DurationsCount(rows, t);
      TimedToolsCount(rows, t);
    }
  }

  lemma {:induction false} DurationsCount(rows: seq<Row>, tool: Cell)
    requires HasToolColumns(rows) && tool != CNull
    ensures |Durations(rows, tool)| == Count(TimedTools(rows), tool)
  {
    if rows != [] {
      var init := rows[..|rows| - 1];
      DurationsCount(init, tool);
      var t := TimedTools(init);
      var row := rows[|rows| - 1];
      if row["tool_name"] != CNull && row["time_to_create"].CNum? {
        assert (t + [row["tool_name"]])[..|t|] == t;
      }
    }
  }

  lemma {:induction false} TimedAreTools(rows: seq<Row>)
    requires HasToolColumns(rows)
    ensures forall x :: x in TimedTools(rows) ==> x in ToolCells(rows)
  {
    if rows != [] {
      var init := rows[..|rows| - 1];
      TimedAreTools(init);
      var row := rows[|rows| - 1];
      if row["tool_name"] != CNull {
        assert ToolCells(rows) == ToolCells(init) + [row["tool_name"]];
      }
    }
  }

  lemma {:induction false} SumOfUsage(rows: seq<Row>, keys: seq<Cell>)
    requires HasToolColumns(rows) && CNull !in keys
    ensures UsageTotal(UsageOf(rows, keys)) == SumCounts(TimedTools(rows), keys)
  {
    if keys != [] {
      SumOfUsage(rows, keys[1..]);
      DurationsCount(rows, keys[0]);
      assert UsageOf(rows, keys)[1..] == UsageOf(rows, keys[1..]);
    }
  }

  /** The sum of the usage counts. */
  function UsageTotal(u: seq<Usage>): nat
  {
    if u == [] then 0 else u[0].1 + UsageTotal(u[1..])
  }

  /** A usage count is the number of numeric values, not of rows: it is at most the
      tool's rows, and the counts add up to the rows that have both a tool and a
      numeric `time_to_create`. */
  lemma ToolUsageFacts(rows: seq<Row>)
    requires HasToolColumns(rows)
    ensures forall i :: 0 <= i < |ToolUsage(rows)| ==>
      ToolUsage(rows)[i].1 <= |ToolRows(rows, ToolUsage(rows)[i].0)|
    ensures UsageTotal(ToolUsage(rows)) == |TimedRows(rows)|
  {
    var keys := Groups(rows);
    assert CNull !in keys;
    forall i | 0 <= i < |keys| ensures |Durations(rows, keys[i])| <= |ToolRows(rows, keys[i])| {
      DurationsAtMostRows(rows, keys[i]);
      ToolCellsCount(rows, keys[i]);
    }
    TimedToolsSize(rows);
    SumOfUsage(rows, keys);
    TimedAreTools(rows);
    SumCountsCovering(TimedTools(rows), keys);
  }

  lemma {:induction false} DurationsAtMostRows(rows: seq<Row>, tool: Cell)
    requires HasToolColumns(rows) && tool != CNull
    ensures |Durations(rows, tool)| <= Count(ToolCells(rows), tool)
  {
    if rows != [] {
      var init := rows[..|rows| - 1];
      DurationsAtMostRows(init, tool);
      var row := rows[|rows| - 1];
      if row["tool_name"] != CNull {
        var t := ToolCells(init);
        assert (t + [row["tool_name"]])[..|t|] == t;
      }
    }
  }
}

=== FILE: values.dfy ===
/** The values that flow through the dashboard's tables: decoded JSON payloads,
    points in time, table cells and rows, and the library conversions the
    script calls but does not define. */
module Values {
  import opened Wrappers

  /** A decoded JSON value, as `json.loads` returns it (dict, list, str, number, bool, None). */
  datatype Json =
    | JNull
    | JBool(b: bool)
    | JNum(n: real)
    | JStr(s: string)
    | JArr(items: seq<Json>)
    | JObj(fields: map<string, Json>)

  /** The empty mapping `{}`. */
  const EmptyObject: Json := JObj(map[])

  /** A pandas Timestamp, reduced to what the dashboard reads from it:
      the calendar day (`.dt.date`, as a day number), the hour (`.dt.hour`)
      and the rest of the time of day. */
  datatype Timestamp = Timestamp(date: int, hour: int, rest: int)

  /** One cell of a data frame. `CNull` is every pandas missing value (None, NaN, NaT). */
  datatype Cell =
    | CNull
    | CStr(s: string)
    | CNum(n: real)
    | CTime(t: Timestamp)
    | CJson(j: Json)

  /** One row of a data frame: its value under each column name. */
  type Row = map<string, Cell>

  /** The third-party conversions the script relies on: `json.loads`,
      `pd.to_datetime(..., errors='coerce')` and `pd.to_numeric(..., errors='coerce')`,
      each applied to one value and returning None where it raises or coerces to NaN/NaT. */
  datatype Library = Library(
    loads: string -> Option<Json>,
    toDatetime: Cell -> Option<Timestamp>,
    toNumeric: Cell -> Option<real>)

  /** How a value returned by `safe_get` lands in a pandas column:
      Python `None` (absent, or JSON null) is missing, strings and numbers
      keep their value, anything else stays a Python object. */
  function FromJson(v: Option<Json>): (c: Cell)
    ensures c == CNull <==> (v == None || v == Some(JNull))
    ensures v.Some? && v.value.JStr? ==> c == CStr(v.value.s)
    ensures v.Some? && v.value.JNum? ==> c == CNum(v.value.n)
    ensures v.Some? && (v.value.JBool? || v.value.JArr? || v.value.JObj?) ==> c == CJson(v.value)
  {
    match v
    case None => CNull
    case Some(JNull) => CNull
    case Some(JStr(s)) => CStr(s)
    case Some(JNum(n)) => CNum(n)
    case Some(j) => CJson(j)
  }

  /** `pd.to_datetime(x, errors='coerce')` for one value: NaT becomes `CNull`. */
  function ToDatetime(lib: Library, c: Cell): (r: Cell)
    ensures r == CNull || r.CTime?
    ensures r.CTime? <==> lib.toDatetime(c).Some?
    ensures r.CTime? ==> r == CTime(lib.toDatetime(c).value)
  {
    match lib.toDatetime(c)
    case Some(t) => CTime(t)
    case None => CNull
  }

  /** `pd.to_numeric(x, errors='coerce')` for one value: NaN becomes `CNull`. */
  function ToNumeric(lib: Library, c: Cell): (r: Cell)
    ensures r == CNull || r.CNum?
    ensures r.CNum? <==> lib.toNumeric(c).Some?
    ensures r.CNum? ==> r == CNum(lib.toNumeric(c).value)
  {
    match lib.toNumeric(c)
    case Some(x) => CNum(x)
    case None => CNull
  }

  /** `pd.to_datetime(values, errors='coerce')` over a column. */
  function DatetimeColumn(lib: Library, values: seq<Cell>): (r: seq<Cell>)
    ensures |r| == |values|
    ensures forall i :: 0 <= i < |values| ==> r[i] == ToDatetime(lib, values[i])
  {
    seq(|values|, i requires 0 <= i < |values| => ToDatetime(lib, values[i]))
  }

  /** `pd.to_numeric(values, errors='coerce')` over a column. */
  function NumericColumn(lib: Library, values: seq<Cell>): (r: seq<Cell>)
    ensures |r| == |values|
    ensures forall i :: 0 <= i < |values| ==> r[i] == ToNumeric(lib, values[i])
  {
    seq(|values|, i requires 0 <= i < |values| => ToNumeric(lib, values[i]))
  }
}

=== FILE: wrappers.dfy ===
/** Option and Result, the failure-carrying wrappers the rest of the model uses. */
module Wrappers {

  datatype Option<+T> = None | Some(value: T)

  datatype Result<+T, +E> = Ok(value: T) | Err(error: E)
}
